=== FILE: README.md ===
# CFH assist protocol: header codec and fabric rule model

A Dafny model of the two pure parts of the CFH assist prototype. Its CFH
header is a distress packet: the senders set `signal = 1` ("distressed").

1. **The CFH header codec.** The senders build a 31-byte header with Python's
   `struct.pack("! B I I B B I I I Q", …)`. The receiver drops datagrams
   shorter than that and unpacks the first 31 bytes of the rest. The model
   rebuilds `struct`'s network-order packing for the codes `B`, `I` and `Q`
   (module `StructFormat`, over `BigEndian`). On top of it sit the header
   `Encode`/`Decode` pair (`CfhHeader`), the receiver's frame handling
   (`CfhReceiver`) and the senders' constant header (`CfhSender`).
2. **The CLOS fabric configuration.** Twelve hosts sit in three racks of four.
   For each host the model derives its address, MAC and top-of-rack port
   (`ClosInventory`). It then builds each rack switch's L2 entries and /32
   routes, and the `table_add` text they are installed with (`FabricRules`).
   It also models:
   - the six-command multicast/mirroring configurator (`Multicast`);
   - which switch and control port each start-up command reaches
     (`ClosProvisioning`, `SwitchCli`);
   - the single-switch topology's host addresses, BMv2 port numbering and
     `senddistress` argument checks (`CfhTopo`).

Every command and address renderer has a reference parser as its partner:
`ParseDecimal`, `ParseHex2`, `ParseIpv4`, `ParseMac`, `ParseL2Command`,
`ParseRouteCommand` and `ParseMcCommand`. A round-trip lemma connects each
pair. The parsers are a reference reading of the text, not BMv2's own
parsing. The three console lines that are modelled (a short frame's report,
the send log line and the `senddistress` outcome) are tied back to the
values they print by their own lemmas. The reference parsers split
on whitespace as Python's `str.split()` does (`Text.SplitWords`). Decimal
rendering (`str(n)`) and two-digit lowercase hex (`{:02x}`) live in `Text`.

The model follows the code on these points:

- `Encode` has a precondition that every field fits its width. `struct.pack`
  raises on an out-of-range value; it does not wrap it modulo 2^(8·width).
- Rule derivation has no conflict error branch. Distinct MACs, addresses and
  ports are proved as lemmas instead.
- Installing a command yields no per-command result. The CLI output is only
  printed, so a call is just (control port, command text).
- The multicast step associates node `0` literally, whatever node it created.
- Empty port lists and unknown mirror sessions are not rejected. An empty port
  list renders `mc_node_create n ` with a trailing space.

## Model

| member | source | states |
|---|---|---|
| BigEndian.FromToBytes | cfh_receiver.py:10 | decoding the big-endian bytes of a value that fits `w` bytes gives the value back |
| BigEndian.ToFromBytes | cfh_receiver.py:10 | re-encoding any byte string's big-endian value at its own width gives the same bytes |
| BigEndian.FromBytesIsWeightedSum | cfh_receiver.py:10 | a field's value is Σ byte[k]·256^(w-1-k) |
| BigEndian.ToBytesInjective | cfh_sender.py:17-28 | two in-range values with the same bytes are equal |
| StructFormat.Pack | cfh_sender.py:17-28 | packing yields exactly `calcsize` bytes for the format |
| StructFormat.Unpack | cfh_receiver.py:21-22 | unpacking succeeds exactly when the input has `calcsize` bytes; each value fits its code's width and packs back to the input |
| StructFormat.UnpackPack | cfh_receiver.py:21-22 | unpacking packed values returns those values |
| StructFormat.PackUnpack | cfh_receiver.py:21-22 | packing unpacked values returns the input bytes |
| StructFormat.PackField | cfh_sender.py:17-28 | field k is packed big-endian at offset `calcsize(fmt[:k])`, with no padding |
| StructFormat.UnpackField | cfh_receiver.py:21-22 | field k is read from the bytes at offset `calcsize(fmt[:k])` |
| CfhHeader.CfhSizeIs31 | cfh_receiver.py:10-11 | `CFH_SIZE` for `! B I I B B I I I Q` is 31 |
| CfhHeader.LayoutOffsets | cfh_receiver.py:10-11 | fields sit at offsets 0, 1, 5, 9, 10, 11, 15, 19, 23 with widths 1, 4, 4, 1, 1, 4, 4, 4, 8 |
| CfhHeader.WellSizedIsFits | cfh_sender.py:17-28 | the header's width predicate is exactly `struct.pack`'s range check for the nine codes |
| CfhHeader.Encode | cfh_sender.py:17-28 | a header whose fields fit their widths encodes to 31 bytes |
| CfhHeader.EncodeField | cfh_sender.py:17-28 | bytes `[off_k, off_k+w_k)` of the encoding are field k big-endian, in the order version, length, request_id, ttl, signal, d_host_id, rdma_host_id, rkey, mr_base_addr |
| CfhHeader.EncodeIsConcatenation | cfh_sender.py:17-28 | the encoding is the nine fields' big-endian bytes laid end to end |
| CfhHeader.EncodeInjective | cfh_sender.py:17-28 | distinct in-range headers encode to distinct bytes |
| CfhHeader.Decode | cfh_receiver.py:17-22 | decoding fails exactly on fewer than 31 bytes; otherwise the header re-encodes to the first 31 bytes |
| CfhHeader.DecodeEncode | cfh_receiver.py:21-22 | the receiver's unpack of a sender's pack gives back the nine values |
| CfhHeader.DecodeUsesPrefixOnly | cfh_receiver.py:21-22 | inputs with the same 31-byte prefix decode alike |
| CfhHeader.DecodeIgnoresTrailing | cfh_receiver.py:21-22 | appending bytes to a long-enough frame does not change its decoding |
| CfhHeader.DecodeField | cfh_receiver.py:21-22 | decoded field k is the big-endian value of bytes `[off_k, off_k+w_k)` |
| CfhHeader.DecodeFieldIsWeightedSum | cfh_receiver.py:21-22 | decoded field k is the weighted byte sum of its slice |
| CfhHeader.DecodeByteFields | cfh_receiver.py:21-22 | version, ttl and signal are bytes 0, 9 and 10 |
| CfhHeader.DecodeAcceptsAnySemantics | cfh_receiver.py:21-22 | an unknown version and ttl 0 still decode: no field is checked |
| CfhReceiver.HandleFrame | cfh_receiver.py:17-22 | a frame is reported too small, with its length, exactly when shorter than 31 bytes; otherwise the header re-encodes to its first 31 bytes |
| CfhReceiver.TooSmallLineReportsLength | cfh_receiver.py:17-19 | a short frame's printed line is `Received packet too small: `, a number, ` bytes`, and the number reads back as the frame's length |
| CfhReceiver.ReceiveBufferIrrelevant | cfh_receiver.py:16-22 | the 1024-byte receive buffer never changes what a frame decodes to |
| CfhReceiver.ReceivesWhatWasSent | cfh_receiver.py:10-22 | a sent header is received as that same header |
| CfhSender.ConstantBytes | cfh_sender.py:6-14 | the big-endian bytes of each constant: `01`, `00000400`, `0000002a`, `0a`, `000004d2`, `0000162e`, `deadbeef`, `0000000010000000` |
| CfhSender.SenderPayloadIsVector | cfh_sender.py:6-28 | the sender's header encodes to `01 00000400 0000002a 0a 01 000004d2 0000162e deadbeef 0000000010000000` |
| CfhSender.DecodeVector | cfh_receiver.py:21-22 | the receiver decodes that vector to the sender's constants |
| CfhSender.SenderPayloadFields | h1_cfh_sender.py:5-26 | byte 0 is 1, byte 9 is 10, byte 10 is 1 (distressed); bytes 11..14 are `00 00 04 d2`, 15..18 `00 00 16 2e`, 19..22 `de ad be ef`, 23..30 `00 00 00 00 10 00 00 00` |
| CfhSender.SendersAgree | h1_cfh_sender.py:5-26 | both sender scripts produce the same 31 bytes |
| CfhSender.SentLineReports31 | cfh_sender.py:37 | the log line of every send reports 31 bytes |
| CfhSender.SendLoop | cfh_sender.py:17-38 | every datagram of the send loop is exactly the header packed before the loop, and each decodes to that header |
| Text.ParseDecimalOfDecimal | CLOS_Topo.py:32 | `str(n)` reads back as `n` |
| Text.DecimalInjective | CLOS_Topo.py:32 | distinct numbers render differently |
| Text.ParseHex2OfHex2 | CLOS_Topo.py:83 | `{:02x}` of a byte reads back as that byte |
| Text.SplitWordsJoin | cfh_topo.py:49 | `" ".join(ws).split() == ws` for non-empty words without whitespace |
| Text.SplitWordsJoinThen | cfh_topo.py:155-157 | splitting a joined word list followed by a space and more text yields the words and then the rest's words |
| Text.SplitCharJoin | CLOS_Topo.py:82 | `c.join(ps).split(c) == ps` when no piece contains `c` |
| Addresses.ParseIpText | CLOS_Topo.py:82 | dotted-decimal text of an address reads back as that address |
| Addresses.ParseMacText | CLOS_Topo.py:83 | colon-separated hex text of a MAC reads back as that MAC |
| Addresses.StripSlash24 | CLOS_Topo.py:82 | an address argument with `/24` reports the address itself, as `IP()` does |
| Addresses.IpTextInjective | CLOS_Topo.py:82 | distinct addresses have distinct text |
| Addresses.MacTextInjective | CLOS_Topo.py:83 | distinct MACs have distinct text |
| ClosInventory.HostsAreIndices | CLOS_Topo.py:80-84 | the hosts are h1..h12 in order |
| ClosInventory.HostIndexOfName | CLOS_Topo.py:148 | `int(h.name[1:])` of `h{i}` is `i` |
| ClosInventory.HostIpArgMatches | CLOS_Topo.py:82 | host `hi`'s `ip=` argument, stripped of `/24`, is `10.0.((i-1)//4).i` |
| ClosInventory.HostMacArgMatches | CLOS_Topo.py:83 | host `hi`'s `mac=` argument is `00:00:00:00:XX:YY` with XX = (i-1)//4+1 and YY = i |
| ClosInventory.TorPort | CLOS_Topo.py:148-149 | a host's switch port is always in 1..4 |
| ClosInventory.TorHosts | CLOS_Topo.py:157-161 | `tor_hosts` has exactly tor1..tor3, four hosts each; any other name is a `KeyError` |
| ClosInventory.TorHostsOfRack | CLOS_Topo.py:157-161 | `tor{K}` holds h(4K-3)..h(4K) in order |
| ClosInventory.TorHostsPartition | CLOS_Topo.py:157-161 | host `hi` is attached to a switch exactly when that switch is `tor{(i-1)//4+1}` |
| ClosInventory.TorHostsCover | CLOS_Topo.py:157-161 | every host is attached to some switch |
| ClosInventory.AddressesUnique | CLOS_Topo.py:82-83 | two hosts share a MAC, or an address, exactly when they are the same host |
| ClosInventory.PortsUniqueInRack | CLOS_Topo.py:148-149 | two hosts in one rack share a port exactly when they are the same host |
| FabricRules.BuildL2Entries | CLOS_Topo.py:164-169 | entries exist exactly for tor1..tor3: four of them, entry k on port k+1 |
| FabricRules.BuildIpv4Routes | CLOS_Topo.py:172-177 | routes exist exactly for tor1..tor3: four of them |
| FabricRules.EntriesOfRack | CLOS_Topo.py:164-177 | entry and route j of `tor{K}` carry host h(4K-3+j)'s MAC, address and port j+1 |
| FabricRules.Tor1Entries | CLOS_Topo.py:164-177 | tor1's entries are MACs `00:00:00:00:01:01..04` on ports 1..4, and its routes are 10.0.0.1..4 with the same ports and MACs |
| FabricRules.RoutesMatchL2 | CLOS_Topo.py:172-177 | the route list has the L2 list's switches, length, and per-position port and MAC |
| FabricRules.EntriesDistinct | CLOS_Topo.py:148-177 | within one switch's lists, MACs, ports and addresses are pairwise distinct |
| FabricRules.HostHasEntry | CLOS_Topo.py:164-177 | every host has its entry and route on its own rack's switch |
| FabricRules.EntryHasHost | CLOS_Topo.py:164-169 | every entry on a switch belongs to one of its attached hosts |
| FabricRules.ParseL2CommandText | CLOS_Topo.py:32 | `table_add l2_forward set_l2_egress_port {mac} => {port}` reads back as its entry |
| FabricRules.ParseRouteCommandText | CLOS_Topo.py:181 | `table_add MyIngress.ipv4_lpm set_egress {ip}/32 => {port} {mac}` reads back as its route |
| FabricRules.InstallL2Rules | CLOS_Topo.py:27-34 | one call per entry, in order, each on `THRIFT_BASE`, each reading back as its entry |
| FabricRules.InstallIpv4Routes | CLOS_Topo.py:179-182 | one call per route, in order, each on `THRIFT_BASE`, each reading back as its route |
| Multicast.Configure | cfh_topo.py:142-173 | the configurator issues six commands in a fixed order: create `mcast_grp`, create `node_id` with `node_ports` in order, associate the literal node 0 into `mcast_grp`, dump, bind `mirror_session` to `mcast_grp`, query `mirror_session` |
| Multicast.ConfigureWellOrdered | CLOS_Topo.py:197-220 | all six steps are issued in their fixed places; the group is created before the association into it, the association comes before mirroring, and the session queried was bound before |
| Multicast.ConfigureAssociatesCreatedNode | cfh_topo.py:154-161 | the association names the created node exactly when `node_id` is 0 |
| Multicast.ConfigureMirrorsItsGroup | cfh_topo.py:150-173 | the group and the node with its ports are created, `mirroring_add_mc session group` and `mirroring_get session` are both issued, and no other binding or query is |
| Multicast.CallSitesAssociateUncreatedNode | CLOS_Topo.py:223 | the CLOS call (node 1), the single-switch call (node 1) and the defaults (node 10) all associate a node they did not create |
| Multicast.NodeCreateWords | cfh_topo.py:155-157 | `mc_node_create`'s words are the node id followed by the ports, in the given order |
| Multicast.ConfigureNodeCreateWords | cfh_topo.py:154-157 | the configurator's second command splits into `mc_node_create`, `node_id`, then each of `node_ports` in order |
| Multicast.ParseMcText | CLOS_Topo.py:197-220 | each command's text reads back as that command |
| Multicast.McCalls | CLOS_Topo.py:192-195 | one call per command, in order, on `THRIFT_BASE`, each reading back as its command |
| ClosProvisioning.ProvisioningPlanContents | CLOS_Topo.py:185-223 | start-up issues tor1's four L2 rules, then its four routes, then the six multicast commands, all from tor1 |
| ClosProvisioning.ProvisioningReachesOwnSwitch | CLOS_Topo.py:138-144 | every start-up call reaches the BMv2 instance of the switch it is issued from |
| ClosProvisioning.OtherSwitchesMissed | CLOS_Topo.py:142 | the same install calls issued from any switch but tor1 would miss that switch's own control port |
| CfhTopo.HostAddresses | cfh_topo.py:71-77 | h1 and h2 are 10.0.0.5 and .6; helper `hi` is 10.0.0.(i+2) |
| CfhTopo.SharedAddresses | cfh_topo.py:71-77 | two hosts share an address exactly when they are h1 and h3, or h2 and h4 |
| CfhTopo.PortBindings | cfh_topo.py:123-131 | bindings exist exactly when there are enough interfaces; port p is bound to `intfs[p-1]` |
| CfhTopo.LaunchBindings | cfh_topo.py:123-131 | with the three helpers of `range(3, 6)` (cfh_topo.py:76), the launch line binds when there are at least five interfaces and fails otherwise; it has exactly five bindings, host `h{i}` gets port `i` on the `i`-th interface, and every bound port is a host's |
| CfhTopo.SendDistress | cfh_topo.py:48-57 | usage error exactly when there are not two words; not-found exactly when there are two words and the first is not a node; otherwise it sends from that node to the second word |
| CfhTopo.OutcomeLine | cfh_topo.py:27-57 | the printed line is the usage text, or splits into `Host {src} not found`, or into `Sending distress packet from {src} -> {dst}` with the command's two words |
| CfhTopo.SendDistressWords | cfh_topo.py:48-57 | `senddistress src dst` sends exactly when `src` is a node |
| CfhTopo.SendDistressLeadingSpace | cfh_topo.py:49 | leading whitespace does not change the outcome |
| CfhTopo.SendDistressArity | cfh_topo.py:50-52 | one word, or three, is a usage error |

## Left out

- Mininet topology building, links, interface bring-up, `net.start` and `net.stop`. This is emulator plumbing. The port model assumes Mininet lists a switch's interfaces in the order its links were added.
- The BMv2 launch command strings, `rm -f /tmp/bmv2-*`, tcpdump helpers, `kill %tcpdump` and every `time.sleep`. These are process and shell side effects. The port numbering of the single-switch launch line is modelled; its text is not.
- Running `simple_switch_CLI` through `switch.cmd`, with a here-document or with `echo "…" |`, and printing its output. A call is modelled as its control port and command text. The shell passes that text through unchanged because it contains no quote, `$`, backquote or backslash: it is built only from letters, digits, `_`, `.`, `:`, `/`, `=`, `>` and spaces.
- The progress prints around the commands: `[BMv2] {cmd}` before each rule install (CLOS_Topo.py:33) and the configurator's `[BMv2] Creating …`, `[BMv2] Associating node 0 …`, `[BMv2] Dumping …` and `… configuration complete` lines (CLOS_Topo.py:198-222, cfh_topo.py:151-175). They are console output only.
- The receiver's prints of a decoded header's fields (cfh_receiver.py:24-28). The fields themselves are modelled by `Decode`.
- UDP sockets, the address each script sends to, and the infinite send and receive loops. The send loop is modelled for a given number of rounds. The receive buffer of 1024 bytes is modelled.
- `send_distress_packet`'s shell command, which is the empty string, and `continuous_distress`'s thread. A `Send` outcome stands for the call and its log line.
- `bmv2_runtime_cli` in the single-switch script. Nothing calls it.
- `spine_tors` in the CLOS script. Nothing reads it.
- CfhTopo.PortBindings: takes the helper count as a parameter. The script fixes it at three (`CfhTopo.HelperCount`); `CfhTopo.LaunchBindings` is the call with that count.
- CfhTopo.SendDistress: takes Mininet's node names as a set parameter. The node lookup itself is library code.
- Out-of-range header fields: `struct.pack` raises on them, so `Encode` requires in-range fields rather than modelling the exception.

=== FILE: addresses.dfy ===
/** IPv4 and MAC addresses as octet strings, their dotted-decimal and
    colon-separated lowercase-hex text, and the parsers that invert that
    text. */
module Addresses {
  import opened Options
  import opened BigEndian
  import opened Text

  type Ipv4 = s: seq<byte> | |s| == 4 witness [0, 0, 0, 0]
  type Mac = s: seq<byte> | |s| == 6 witness [0, 0, 0, 0, 0, 0]

  /** Dotted-decimal text, `a.b.c.d`, as `h.IP()` returns it. */
  function IpText(ip: Ipv4): string
  {
    Join(DecimalAll(ip), '.')
  }

  /** Colon-separated text of six two-digit lowercase hex octets. */
  function MacText(m: Mac): string
  {
    Join(HexAll(m), ':')
  }

  function HexAll(bs: seq<byte>): (ss: seq<string>)
    ensures |ss| == |bs|
    ensures forall k :: 0 <= k < |bs| ==> ss[k] == Hex2(bs[k])
  {
    seq(|bs|, k requires 0 <= k < |bs| => Hex2(bs[k]))
  }

  /** Reads every piece as a decimal octet. */
  function ParseOctets(ps: seq<string>): (r: Option<seq<byte>>)
    ensures r.Some? ==> |r.value| == |ps|
  {
    if ps == [] then Some([])
    else
      match (ParseDecimal(ps[0]), ParseOctets(ps[1..]))
      case (Some(v), Some(rest)) => if v < 256 then Some([v] + rest) else None
      case _ => None
  }

  /** Reads every piece as a two-digit hex octet. */
  function ParseHexOctets(ps: seq<string>): (r: Option<seq<byte>>)
    ensures r.Some? ==> |r.value| == |ps|
  {
    if ps == [] then Some([])
    else
      match (ParseHex2(ps[0]), ParseHexOctets(ps[1..]))
      case (Some(v), Some(rest)) => Some([v] + rest)
      case _ => None
  }

  /** An interface address as reported by Mininet's `IP()`: the text before
      any `/prefix-length`. */
  function StripPrefixLen(s: string): string
  {
    SplitChar(s, '/')[0]
  }

  /** An address text followed by `/24` reads back as that address. */
  lemma StripSlash24(ip: Ipv4)
    ensures ParseIpv4(StripPrefixLen(IpText(ip) + "/24")) == Some(ip)
  {
    var text := IpText(ip);
    var ps := DecimalAll(ip);
    forall k | 0 <= k < |ps|
      ensures '/' !in ps[k]
    {
      DecimalHasNo(ip[k], '/');
    }
    JoinHasNo(ps, '.', '/');
    SplitCharPrefix(text, "/24", '/');
    assert SplitChar("/24", '/')[0] == [];
    assert text + [] == text;
    ParseIpText(ip);
  }

  /** Dotted-decimal text with exactly four octets. */
  function ParseIpv4(s: string): (r: Option<Ipv4>)
  {
    var ps := SplitChar(s, '.');
    if |ps| != 4 then None
    else
      match ParseOctets(ps)
      case Some(os) => Some(os)
      case None => None
  }

  /** Colon-separated hex text with exactly six octets. */
  function ParseMac(s: string): (r: Option<Mac>)
  {
    var ps := SplitChar(s, ':');
    if |ps| != 6 then None
    else
      match ParseHexOctets(ps)
      case Some(os) => Some(os)
      case None => None
  }

  lemma {:induction false} ParseOctetsDecimal(bs: seq<byte>)
    ensures ParseOctets(DecimalAll(bs)) == Some(bs)
  {
    if bs != [] {
      assert DecimalAll(bs)[1..] == DecimalAll(bs[1..]);
      ParseDecimalOfDecimal(bs[0]);
      ParseOctetsDecimal(bs[1..]);
      assert [bs[0]] + bs[1..] == bs;
    }
  }

  lemma {:induction false} ParseHexOctetsHex(bs: seq<byte>)
    ensures ParseHexOctets(HexAll(bs)) == Some(bs)
  {
    if bs != [] {
      assert HexAll(bs)[1..] == HexAll(bs[1..]);
      ParseHex2OfHex2(bs[0]);
      ParseHexOctetsHex(bs[1..]);
      assert [bs[0]] + bs[1..] == bs;
    }
  }

  /** Dotted-decimal text reads back as the address. */
  lemma ParseIpText(ip: Ipv4)
    ensures ParseIpv4(IpText(ip)) == Some(ip)
  {
    var ps := DecimalAll(ip);
    forall k | 0 <= k < |ps|
      ensures '.' !in ps[k]
    {
      DecimalHasNo(ip[k], '.');
    }
    SplitCharJoin(ps, '.');
    ParseOctetsDecimal(ip);
  }

  /** MAC text reads back as the address. */
  lemma ParseMacText(m: Mac)
    ensures ParseMac(MacText(m)) == Some(m)
  {
    var ps := HexAll(m);
    forall k | 0 <= k < |ps|
      ensures ':' !in ps[k]
    {
      Hex2HasNo(m[k], ':');
    }
    SplitCharJoin(ps, ':');
    ParseHexOctetsHex(m);
  }

  /** Distinct addresses have distinct text. */
  lemma IpTextInjective(a: Ipv4, b: Ipv4)
    requires IpText(a) == IpText(b)
    ensures a == b
  {
    ParseIpText(a);
    ParseIpText(b);
  }

  lemma MacTextInjective(a: Mac, b: Mac)
    requires MacText(a) == MacText(b)
    ensures a == b
  {
    ParseMacText(a);
    ParseMacText(b);
  }

  /** Address text is a single whitespace-free token. */
  lemma IpTextIsWord(ip: Ipv4)
    ensures IsWord(IpText(ip))
  {
    var ps := DecimalAll(ip);
    DecimalAllAreWords(ip);
    JoinNoSpace(ps, '.');
    assert IpText(ip) == ps[0] + ['.'] + Join(ps[1..], '.');
  }

  lemma MacTextIsWord(m: Mac)
    ensures IsWord(MacText(m))
  {
    var ps := HexAll(m);
    forall k | 0 <= k < |ps|
      ensures NoSpace(ps[k])
    {
    }
    JoinNoSpace(ps, ':');
    assert MacText(m) == ps[0] + [':'] + Join(ps[1..], ':');
  }
}

=== FILE: big_endian.dfy ===
/** Unsigned integers as fixed-width big-endian ("network order") byte strings,
    the representation Python's `struct` uses for the standard-size codes
    under the `!` prefix. */
module BigEndian {

  /** One octet. */
  type byte = b: int | 0 <= b < 256

  /** 256 to the power `w`: the number of values a `w`-byte field can hold. */
  function Pow256(w: nat): (p: nat)
    ensures p >= 1
  {
    if w == 0 then 1 else 256 * Pow256(w - 1)
  }

  /** True when `v` fits an unsigned field of `w` bytes. */
  predicate FitsWidth(v: nat, w: nat)
  {
    v < Pow256(w)
  }

  /** Euclidean split of `v` into its high part and its last byte. */
  lemma SplitLastByte(v: nat, w: nat)
    requires w > 0 && v < Pow256(w)
    ensures v / 256 < Pow256(w - 1)
    ensures v == (v / 256) * 256 + v % 256
  {
    assert Pow256(w) == 256 * Pow256(w - 1);
  }

  /** The `w` bytes of `v`, most significant first. */
  function ToBytes(v: nat, w: nat): (r: seq<byte>)
    requires FitsWidth(v, w)
    ensures |r| == w
    decreases w
  {
    if w == 0 then []
    else
      SplitLastByte(v, w);
      ToBytes(v / 256, w - 1) + [v % 256]
  }

  /** The value of a big-endian byte string, read from its last byte. */
  function FromBytes(s: seq<byte>): (v: nat)
    ensures FitsWidth(v, |s|)
  {
    if s == [] then 0
    else
      var hi := FromBytes(s[..|s| - 1]);
      assert hi <= Pow256(|s| - 1) - 1;
      assert hi * 256 <= Pow256(|s|) - 256;
      hi * 256 + s[|s| - 1]
  }

  /** The positional definition of big-endian: byte `k` of a `w`-byte string
      weighs 256^(w-1-k). */
  function WeightedSum(s: seq<byte>): nat
  {
    if s == [] then 0 else s[0] * Pow256(|s| - 1) + WeightedSum(s[1..])
  }

  /** Reading a byte string back yields the value it was written from. */
  lemma {:induction false} FromToBytes(v: nat, w: nat)
    requires FitsWidth(v, w)
    ensures FromBytes(ToBytes(v, w)) == v
    decreases w
  {
    if w > 0 {
      SplitLastByte(v, w);
      var s := ToBytes(v, w);
      assert s[..|s| - 1] == ToBytes(v / 256, w - 1);
      FromToBytes(v / 256, w - 1);
    }
  }

  /** Writing a value read from `s` at the width of `s` reproduces `s`. */
  lemma {:induction false} ToFromBytes(s: seq<byte>)
    ensures ToBytes(FromBytes(s), |s|) == s
  {
    if s != [] {
      var hi := FromBytes(s[..|s| - 1]);
      var v := FromBytes(s);
      assert v / 256 == hi && v % 256 == s[|s| - 1];
      ToFromBytes(s[..|s| - 1]);
      assert s == s[..|s| - 1] + [s[|s| - 1]];
    }
  }

  /** `ToBytes` is injective at a fixed width. */
  lemma ToBytesInjective(v: nat, u: nat, w: nat)
    requires FitsWidth(v, w) && FitsWidth(u, w)
    requires ToBytes(v, w) == ToBytes(u, w)
    ensures v == u
  {
    FromToBytes(v, w);
    FromToBytes(u, w);
  }

  /** Shifting `x·p + y` one byte left and adding `z`. */
  lemma Regroup(x: nat, p: nat, y: nat, z: nat)
    ensures (x * p + y) * 256 + z == x * (p * 256) + (y * 256 + z)
  {
  }

  /** Prepending a byte adds its weight: the head-first reading. */
  lemma {:induction false} FromBytesCons(b: byte, s: seq<byte>)
    ensures FromBytes([b] + s) == b * Pow256(|s|) + FromBytes(s)
    decreases |s|
  {
    if s == [] {
      assert [b] + s == [b];
      assert FromBytes([b]) == FromBytes([]) * 256 + b;
    } else {
      var t := [b] + s;
      assert t[..|t| - 1] == [b] + s[..|s| - 1];
      FromBytesCons(b, s[..|s| - 1]);
      assert FromBytes(t) == FromBytes([b] + s[..|s| - 1]) * 256 + s[|s| - 1];
      Regroup(b, Pow256(|s| - 1), FromBytes(s[..|s| - 1]), s[|s| - 1]);
      assert Pow256(|s|) == Pow256(|s| - 1) * 256;
    }
  }

  /** The recursive reading agrees with the positional sum Σ s[k]·256^(|s|-1-k). */
  lemma {:induction false} FromBytesIsWeightedSum(s: seq<byte>)
    ensures FromBytes(s) == WeightedSum(s)
  {
    if s != [] {
      assert s == [s[0]] + s[1..];
      FromBytesCons(s[0], s[1..]);
      FromBytesIsWeightedSum(s[1..]);
    }
  }
}

=== FILE: cfh_header.dfy ===
/** The CFH distress header: nine unsigned fields packed with the format
    `"! B I I B B I I I Q"` into 31 bytes, network order, no padding. */
module CfhHeader {
  import opened Options
  import opened BigEndian
  import opened StructFormat

  datatype Header = Header(
    version: nat,
    length: nat,
    requestId: nat,
    ttl: nat,
    signal: nat,
    dHostId: nat,
    rdmaHostId: nat,
    rkey: nat,
    mrBaseAddr: nat)

  /** The format string `"! B I I B B I I I Q"`, one code per field. */
  const CfhFormat: seq<Code> := [B, I, I, B, B, I, I, I, Q]

  /** `CFH_SIZE = struct.calcsize(CFH_STRUCT_FORMAT)`. */
  const CfhSize: nat := CalcSize(CfhFormat)

  /** Where each field starts and how wide it is, in pack/unpack order. */
  const FieldOffsets: seq<nat> := [0, 1, 5, 9, 10, 11, 15, 19, 23]
  const FieldWidths: seq<nat> := [1, 4, 4, 1, 1, 4, 4, 4, 8]

  /** The header's fields in pack/unpack order: version, length, request_id,
      ttl, signal, d_host_id, rdma_host_id, rkey, mr_base_addr. */
  function Fields(h: Header): (vs: seq<nat>)
    ensures |vs| == 9
  {
    [h.version, h.length, h.requestId, h.ttl, h.signal,
     h.dHostId, h.rdmaHostId, h.rkey, h.mrBaseAddr]
  }

  /** The header built from nine values in pack/unpack order. */
  function FromFields(vs: seq<nat>): (h: Header)
    requires |vs| == 9
    ensures Fields(h) == vs
  {
    Header(vs[0], vs[1], vs[2], vs[3], vs[4], vs[5], vs[6], vs[7], vs[8])
  }

  /** Every field fits its width: one byte for version, ttl and signal,
      eight for mr_base_addr, four for the rest. */
  predicate WellSized(h: Header)
  {
    && h.version < 0x100
    && h.length < 0x1_0000_0000
    && h.requestId < 0x1_0000_0000
    && h.ttl < 0x100
    && h.signal < 0x100
    && h.dHostId < 0x1_0000_0000
    && h.rdmaHostId < 0x1_0000_0000
    && h.rkey < 0x1_0000_0000
    && h.mrBaseAddr < 0x1_0000_0000_0000_0000
  }

  /** The field widths are exactly what `struct.pack` accepts for the format. */
  lemma WellSizedIsFits(h: Header)
    ensures WellSized(h) <==> Fits(CfhFormat, Fields(h))
  {
    assert Pow256(1) == 0x100;
    assert Pow256(4) == 0x1_0000_0000;
    assert Pow256(8) == 0x1_0000_0000_0000_0000;
    var fs := Fields(h);
    if Fits(CfhFormat, fs) {
      assert FitsWidth(fs[0], 1) && FitsWidth(fs[1], 4) && FitsWidth(fs[2], 4);
      assert FitsWidth(fs[3], 1) && FitsWidth(fs[4], 1) && FitsWidth(fs[5], 4);
      assert FitsWidth(fs[6], 4) && FitsWidth(fs[7], 4) && FitsWidth(fs[8], 8);
    }
  }

  /** The header is 31 bytes: 1+4+4+1+1+4+4+4+8, no padding. */
  lemma CfhSizeIs31()
    ensures CfhSize == 31
  {
    assert CalcSize(CfhFormat[8..]) == 8;
  }

  /** Field `k` of the format starts at `FieldOffsets[k]` and is
      `FieldWidths[k]` bytes wide. */
  lemma {:induction false} LayoutOffsets(k: nat)
    requires k < 9
    ensures Offset(CfhFormat, k) == FieldOffsets[k]
    ensures Size(CfhFormat[k]) == FieldWidths[k]
    ensures FieldOffsets[k] + FieldWidths[k] <= 31
  {
    if k == 0 {
      assert CfhFormat[..0] == [];
    } else {
      LayoutOffsets(k - 1);
      OffsetStep(CfhFormat, k - 1);
    }
  }

  /** The senders' `struct.pack`. Python raises on an out-of-range value, so
      the model asks for well-sized fields instead of wrapping them. */
  function Encode(h: Header): (r: seq<byte>)
    requires WellSized(h)
    ensures |r| == 31
  {
    WellSizedIsFits(h);
    CfhSizeIs31();
    Pack(CfhFormat, Fields(h))
  }

  /** Field `k` of the packed header is the big-endian bytes of the `k`-th
      value, at offset 0, 1, 5, 9, 10, 11, 15, 19 or 23. */
  lemma EncodeField(h: Header, k: nat)
    requires WellSized(h) && k < 9
    ensures FieldOffsets[k] + FieldWidths[k] <= 31
    ensures FitsWidth(Fields(h)[k], FieldWidths[k])
    ensures Encode(h)[FieldOffsets[k]..FieldOffsets[k] + FieldWidths[k]]
            == ToBytes(Fields(h)[k], FieldWidths[k])
  {
    WellSizedIsFits(h);
    LayoutOffsets(k);
    PackField(CfhFormat, Fields(h), k);
  }

  /** The big-endian bytes of fields `k` to 8, back to back. */
  function BytesFrom(h: Header, k: nat): (r: seq<byte>)
    requires WellSized(h) && k <= 9
    decreases 9 - k
  {
    if k == 9 then []
    else
      WellSizedIsFits(h);
      LayoutOffsets(k);
      ToBytes(Fields(h)[k], FieldWidths[k]) + BytesFrom(h, k + 1)
  }

  lemma {:induction false} PackFrom(h: Header, k: nat)
    requires WellSized(h) && k <= 9
    ensures Fits(CfhFormat[k..], Fields(h)[k..])
    ensures Pack(CfhFormat[k..], Fields(h)[k..]) == BytesFrom(h, k)
    decreases 9 - k
  {
    if k == 9 {
      assert CfhFormat[9..] == [] && Fields(h)[9..] == [];
    } else {
      WellSizedIsFits(h);
      LayoutOffsets(k);
      PackTail(CfhFormat, Fields(h), k);
      PackFrom(h, k + 1);
    }
  }

  /** The packed header is the nine fields' big-endian bytes back to back,
      in pack order. */
  lemma EncodeIsConcatenation(h: Header)
    requires WellSized(h)
    ensures Encode(h)
      == ToBytes(h.version, 1) + (ToBytes(h.length, 4) + (ToBytes(h.requestId, 4)
       + (ToBytes(h.ttl, 1) + (ToBytes(h.signal, 1) + (ToBytes(h.dHostId, 4)
       + (ToBytes(h.rdmaHostId, 4) + (ToBytes(h.rkey, 4) + ToBytes(h.mrBaseAddr, 8))))))))
  {
    PackFrom(h, 0);
    assert CfhFormat[0..] == CfhFormat && Fields(h)[0..] == Fields(h);
    assert BytesFrom(h, 8) == ToBytes(h.mrBaseAddr, 8);
    assert BytesFrom(h, 7) == ToBytes(h.rkey, 4) + BytesFrom(h, 8);
    assert BytesFrom(h, 6) == ToBytes(h.rdmaHostId, 4) + BytesFrom(h, 7);
    assert BytesFrom(h, 5) == ToBytes(h.dHostId, 4) + BytesFrom(h, 6);
    assert BytesFrom(h, 4) == ToBytes(h.signal, 1) + BytesFrom(h, 5);
    assert BytesFrom(h, 3) == ToBytes(h.ttl, 1) + BytesFrom(h, 4);
    assert BytesFrom(h, 2) == ToBytes(h.requestId, 4) + BytesFrom(h, 3);
    assert BytesFrom(h, 1) == ToBytes(h.length, 4) + BytesFrom(h, 2);
    assert BytesFrom(h, 0) == ToBytes(h.version, 1) + BytesFrom(h, 1);
  }

  /** The receiver's step: frames shorter than `CFH_SIZE` are refused, longer
      ones are unpacked from their first `CFH_SIZE` bytes only. Field values
      are never checked. */
  function Decode(s: seq<byte>): (r: Option<Header>)
    ensures r.None? <==> |s| < 31
    ensures r.Some? ==> WellSized(r.value) && Encode(r.value) == s[..31]
  {
    CfhSizeIs31();
    if |s| < CfhSize then None
    else
      match Unpack(CfhFormat, s[..CfhSize])
      case Some(vs) =>
        var h := FromFields(vs);
        WellSizedIsFits(h);
        Some(h)
      case None => None
  }

  /** Round trip: the receiver's unpack of the senders' pack returns the
      nine original values. */
  lemma DecodeEncode(h: Header)
    requires WellSized(h)
    ensures Decode(Encode(h)) == Some(h)
  {
    WellSizedIsFits(h);
    CfhSizeIs31();
    var s := Encode(h);
    assert s[..CfhSize] == s;
    UnpackPack(CfhFormat, Fields(h));
  }

  /** Decoding depends on the first 31 bytes only. */
  lemma DecodeUsesPrefixOnly(s: seq<byte>, t: seq<byte>)
    requires |s| >= 31 && |t| >= 31
    requires s[..31] == t[..31]
    ensures Decode(s) == Decode(t)
  {
    CfhSizeIs31();
  }

  /** Bytes appended after the header change nothing. */
  lemma DecodeIgnoresTrailing(s: seq<byte>, extra: seq<byte>)
    requires |s| >= 31
    ensures Decode(s + extra) == Decode(s)
  {
    assert (s + extra)[..31] == s[..31];
    DecodeUsesPrefixOnly(s + extra, s);
  }

  /** Decoded field `k` is the big-endian value of the `FieldWidths[k]` bytes
      at `FieldOffsets[k]`. */
  lemma DecodeField(s: seq<byte>, k: nat)
    requires |s| >= 31 && k < 9
    ensures Decode(s).Some?
    ensures FieldOffsets[k] + FieldWidths[k] <= 31
    ensures Fields(Decode(s).value)[k]
            == FromBytes(s[FieldOffsets[k]..FieldOffsets[k] + FieldWidths[k]])
  {
    var h := Decode(s).value;
    EncodedField(h, s[..31], k);
    SliceOfPrefix(s, 31, FieldOffsets[k], FieldOffsets[k] + FieldWidths[k]);
  }

  /** Reading field `k` back from an encoding gives the field. */
  lemma EncodedField(h: Header, e: seq<byte>, k: nat)
    requires WellSized(h) && k < 9 && Encode(h) == e
    ensures FieldOffsets[k] + FieldWidths[k] <= |e|
    ensures FromBytes(e[FieldOffsets[k]..FieldOffsets[k] + FieldWidths[k]]) == Fields(h)[k]
  {
    EncodeField(h, k);
    FromToBytes(Fields(h)[k], FieldWidths[k]);
  }

  /** A slice inside a prefix is the same slice of the whole sequence. */
  lemma SliceOfPrefix(s: seq<byte>, n: nat, i: nat, j: nat)
    requires i <= j <= n <= |s|
    ensures s[..n][i..j] == s[i..j]
  {
  }

  /** The one-byte fields are the bytes at 0, 9 and 10 themselves. */
  lemma DecodeByteFields(s: seq<byte>)
    requires |s| >= 31
    ensures Decode(s).Some?
    ensures Decode(s).value.version == s[0]
    ensures Decode(s).value.ttl == s[9]
    ensures Decode(s).value.signal == s[10]
  {
    DecodeField(s, 0);
    DecodeField(s, 3);
    DecodeField(s, 4);
    assert s[0..1] == [s[0]] && s[9..10] == [s[9]] && s[10..11] == [s[10]];
  }

  /** Every decoded field follows the positional big-endian rule
      value = Σ byte[j]·256^(w-1-j) over its bytes. */
  lemma DecodeFieldIsWeightedSum(s: seq<byte>, k: nat)
    requires |s| >= 31 && k < 9
    ensures Decode(s).Some?
    ensures FieldOffsets[k] + FieldWidths[k] <= 31
    ensures Fields(Decode(s).value)[k]
            == WeightedSum(s[FieldOffsets[k]..FieldOffsets[k] + FieldWidths[k]])
  {
    DecodeField(s, k);
    FromBytesIsWeightedSum(s[FieldOffsets[k]..FieldOffsets[k] + FieldWidths[k]]);
  }

  /** No semantic check: any 31 bytes decode, including ttl 0 and versions
      other than 1. */
  lemma DecodeAcceptsAnySemantics(s: seq<byte>)
    requires |s| == 31 && s[0] != 1 && s[9] == 0
    ensures Decode(s).Some?
    ensures Decode(s).value.version != 1 && Decode(s).value.ttl == 0
  {
    DecodeByteFields(s);
  }

  /** Encoding is injective: distinct well-sized headers give distinct bytes. */
  lemma EncodeInjective(h: Header, g: Header)
    requires WellSized(h) && WellSized(g)
    requires Encode(h) == Encode(g)
    ensures h == g
  {
    DecodeEncode(h);
    DecodeEncode(g);
  }
}

=== FILE: cfh_receiver.dfy ===
/** The CFH receiver loop body: one datagram in, one report out. */
module CfhReceiver {
  import opened Options
  import opened BigEndian
  import opened Text
  import opened CfhHeader

  /** `sock.recvfrom(1024)`: longer datagrams are truncated to this size. */
  const RecvBufSize: nat := 1024

  /** What the receiver reports for one datagram. */
  datatype Report = TooSmall(size: nat) | Received(header: Header)

  /** One iteration of the receive loop on the bytes `recvfrom` returned:
      a short frame is reported and skipped, anything else is unpacked. */
  function HandleFrame(data: seq<byte>): (r: Report)
    ensures r.TooSmall? <==> |data| < 31
    ensures r.TooSmall? ==> r.size == |data|
    ensures r.Received? ==> WellSized(r.header) && Encode(r.header) == data[..31]
  {
    match Decode(data)
    case None => TooSmall(|data|)
    case Some(h) => Received(h)
  }

  /** The line printed for a short frame. */
  function TooSmallLine(size: nat): string
  {
    "Received packet too small: " + Decimal(size) + " bytes"
  }

  /** A short frame's line carries the fixed text around its length, and the
      number in between reads back as the frame's length. */
  lemma TooSmallLineReportsLength(data: seq<byte>)
    requires |data| < 31
    ensures HandleFrame(data) == TooSmall(|data|)
    ensures var line := TooSmallLine(HandleFrame(data).size);
      && 27 + 6 <= |line|
      && line[..27] == "Received packet too small: "
      && line[|line| - 6..] == " bytes"
      && ParseDecimal(line[27..|line| - 6]) == Some(|data|)
  {
    var d := Decimal(|data|);
    assert |"Received packet too small: "| == 27;
    Middle("Received packet too small: ", d, " bytes");
    ParseDecimalOfDecimal(|data|);
  }

  /** A datagram as the receiver sees it after `recvfrom(1024)`. */
  function Receive(datagram: seq<byte>): (r: Report)
  {
    HandleFrame(if |datagram| <= RecvBufSize then datagram else datagram[..RecvBufSize])
  }

  /** The 1024-byte receive buffer never affects the report: the header
      lies entirely within it. */
  lemma ReceiveBufferIrrelevant(datagram: seq<byte>)
    ensures Receive(datagram) == HandleFrame(datagram)
  {
    if |datagram| > RecvBufSize {
      DecodeIgnoresTrailing(datagram[..RecvBufSize], datagram[RecvBufSize..]);
      assert datagram == datagram[..RecvBufSize] + datagram[RecvBufSize..];
    }
  }

  /** A frame sent by a sender is reported with exactly the sent fields. */
  lemma ReceivesWhatWasSent(h: Header)
    requires WellSized(h)
    ensures Receive(Encode(h)) == Received(h)
  {
    DecodeEncode(h);
  }
}

=== FILE: cfh_sender.dfy ===
/** The two CFH sender scripts: the same nine constants packed once and sent
    repeatedly. The UDP socket and the five-second pacing are left to the
    environment. */
module CfhSender {
  import opened Options
  import opened BigEndian
  import opened Text
  import opened CfhHeader

  /** Signal value 1 means "distressed". */
  const Distressed: nat := 1

  /** The constants of the standalone sender. */
  const SenderHeader: Header :=
    Header(version := 1, length := 1024, requestId := 42, ttl := 10,
           signal := Distressed, dHostId := 1234, rdmaHostId := 5678,
           rkey := 0xdeadbeef, mrBaseAddr := 0x10000000)

  /** The constants of the sender run on host h1. */
  const H1Header: Header :=
    Header(version := 1, length := 1024, requestId := 42, ttl := 10,
           signal := 1, dHostId := 1234, rdmaHostId := 5678,
           rkey := 0xdeadbeef, mrBaseAddr := 0x10000000)

  /** `01 00000400 0000002a 0a 01 000004d2 0000162e deadbeef 0000000010000000`,
      grouped by field. */
  const ExpectedPayload: seq<byte> :=
    [0x01] + ([0x00, 0x00, 0x04, 0x00] + ([0x00, 0x00, 0x00, 0x2a]
    + ([0x0a] + ([0x01] + ([0x00, 0x00, 0x04, 0xd2] + ([0x00, 0x00, 0x16, 0x2e]
    + ([0xde, 0xad, 0xbe, 0xef] + [0x00, 0x00, 0x00, 0x00, 0x10, 0x00, 0x00, 0x00])))))))

  /** A four-byte field is its value's base-256 digits, most significant first. */
  lemma FourBytes(v: nat)
    requires v < 0x1_0000_0000
    ensures FitsWidth(v, 4)
    ensures ToBytes(v, 4) == [v / 256 / 256 / 256, v / 256 / 256 % 256, v / 256 % 256, v % 256]
  {
    var a := v / 256;
    var b := a / 256;
    var c := b / 256;
    assert c < 256;
    assert ToBytes(c, 1) == [c];
    assert ToBytes(b, 2) == ToBytes(c, 1) + [b % 256];
    assert ToBytes(a, 3) == ToBytes(b, 2) + [a % 256];
    assert ToBytes(v, 4) == ToBytes(a, 3) + [v % 256];
  }

  /** The big-endian bytes of each constant. */
  lemma ConstantBytes()
    ensures ToBytes(1, 1) == [0x01]
    ensures ToBytes(1024, 4) == [0x00, 0x00, 0x04, 0x00]
    ensures ToBytes(42, 4) == [0x00, 0x00, 0x00, 0x2a]
    ensures ToBytes(10, 1) == [0x0a]
    ensures ToBytes(1234, 4) == [0x00, 0x00, 0x04, 0xd2]
    ensures ToBytes(5678, 4) == [0x00, 0x00, 0x16, 0x2e]
    ensures ToBytes(0xdeadbeef, 4) == [0xde, 0xad, 0xbe, 0xef]
    ensures ToBytes(0x10000000, 8) == [0x00, 0x00, 0x00, 0x00, 0x10, 0x00, 0x00, 0x00]
  {
    FourBytes(1024);
    FourBytes(42);
    FourBytes(1234);
    FourBytes(5678);
    FourBytes(0xdeadbeef);
    MrBaseAddrBytes();
  }

  /** The eight bytes of `mr_base_addr`, one byte per step from the right. */
  lemma MrBaseAddrBytes()
    ensures ToBytes(0x10000000, 8) == [0x00, 0x00, 0x00, 0x00, 0x10, 0x00, 0x00, 0x00]
  {
    assert ToBytes(0, 4) == [0x00, 0x00, 0x00, 0x00];
    assert ToBytes(0x10, 5) == ToBytes(0, 4) + [0x10];
    assert ToBytes(0x1000, 6) == ToBytes(0x10, 5) + [0x00];
    assert ToBytes(0x100000, 7) == ToBytes(0x1000, 6) + [0x00];
    assert ToBytes(0x10000000, 8) == ToBytes(0x100000, 7) + [0x00];
  }

  /** Packing the standalone sender's constants gives exactly the documented
      31 bytes. */
  lemma SenderPayloadIsVector()
    ensures WellSized(SenderHeader)
    ensures Encode(SenderHeader) == ExpectedPayload
  {
    EncodeIsConcatenation(SenderHeader);
    ConstantBytes();
  }

  /** The receiver reads the vector as the scripts' nine constants. */
  lemma DecodeVector()
    ensures Decode(ExpectedPayload) == Some(SenderHeader)
  {
    SenderPayloadIsVector();
    DecodeEncode(SenderHeader);
  }

  /** Byte 0 is version 1, byte 9 is ttl 10 and byte 10 is the distressed
      signal; d_host_id 1234, rdma_host_id 5678, rkey 0xdeadbeef and
      mr_base_addr 0x10000000 occupy 11..14, 15..18, 19..22 and 23..30. */
  lemma SenderPayloadFields()
    ensures WellSized(SenderHeader)
    ensures var p := Encode(SenderHeader);
      && p[0] == 1 && p[9] == 10 && p[10] == Distressed
      && p[11..15] == [0x00, 0x00, 0x04, 0xd2]
      && p[15..19] == [0x00, 0x00, 0x16, 0x2e]
      && p[19..23] == [0xde, 0xad, 0xbe, 0xef]
      && p[23..31] == [0x00, 0x00, 0x00, 0x00, 0x10, 0x00, 0x00, 0x00]
  {
    assert WellSized(SenderHeader);
    ByteFieldsOf(SenderHeader);
    WideFieldsOf(SenderHeader);
  }

  /** The one-byte fields of any header carrying the scripts' version, ttl
      and signal. */
  lemma ByteFieldsOf(h: Header)
    requires WellSized(h) && h.version == 1 && h.ttl == 10 && h.signal == Distressed
    ensures var p := Encode(h); p[0] == 1 && p[9] == 10 && p[10] == Distressed
  {
    var p := Encode(h);
    EncodeField(h, 0);
    EncodeField(h, 3);
    EncodeField(h, 4);
    assert ToBytes(1, 1) == [1] && ToBytes(10, 1) == [10];
    assert p[0] == p[0..1][0] && p[9] == p[9..10][0] && p[10] == p[10..11][0];
  }

  /** The multi-byte identifier fields of any header carrying the scripts'
      d_host_id, rdma_host_id, rkey and mr_base_addr. */
  lemma WideFieldsOf(h: Header)
    requires WellSized(h) && h.dHostId == 1234 && h.rdmaHostId == 5678
    requires h.rkey == 0xdeadbeef && h.mrBaseAddr == 0x10000000
    ensures var p := Encode(h);
      && p[11..15] == [0x00, 0x00, 0x04, 0xd2]
      && p[15..19] == [0x00, 0x00, 0x16, 0x2e]
      && p[19..23] == [0xde, 0xad, 0xbe, 0xef]
      && p[23..31] == [0x00, 0x00, 0x00, 0x00, 0x10, 0x00, 0x00, 0x00]
  {
    FourBytes(1234);
    FourBytes(5678);
    FourBytes(0xdeadbeef);
    MrBaseAddrBytes();
    EncodeField(h, 5);
    EncodeField(h, 6);
    EncodeField(h, 7);
    EncodeField(h, 8);
  }

  /** Both sender scripts put the same 31 bytes on the wire. */
  lemma SendersAgree()
    ensures WellSized(SenderHeader) && WellSized(H1Header)
    ensures Encode(H1Header) == Encode(SenderHeader) == ExpectedPayload
  {
    SenderPayloadIsVector();
    assert H1Header == SenderHeader;
  }

  /** The line printed after each send. */
  function SentLine(payload: seq<byte>, ip: string, port: nat): string
  {
    "Sent CFH packet (" + Decimal(|payload|) + " bytes) to " + ip + ":" + Decimal(port)
  }

  /** The printed length is 31 for every send of a well-sized header. */
  lemma SentLineReports31(h: Header, ip: string, port: nat)
    requires WellSized(h)
    ensures SentLine(Encode(h), ip, port)
            == "Sent CFH packet (31 bytes) to " + ip + ":" + Decimal(port)
  {
  }

  /** The first `rounds` iterations of the send loop: the header is packed
      once, before the loop, and every datagram carries those bytes. */
  method SendLoop(h: Header, rounds: nat) returns (sent: seq<seq<byte>>)
    requires WellSized(h)
    ensures |sent| == rounds
    ensures forall k :: 0 <= k < rounds ==> sent[k] == Encode(h)
    ensures forall j, k :: 0 <= j < k < rounds ==> sent[j] == sent[k]
    ensures forall k :: 0 <= k < rounds ==> Decode(sent[k]) == Some(h)
  {
    var hdr := Encode(h);
    DecodeEncode(h);
    sent := [];
    while |sent| < rounds
      invariant |sent| <= rounds
      invariant forall k :: 0 <= k < |sent| ==> sent[k] == hdr
    {
      sent := sent + [hdr];
    }
  }
}

=== FILE: cfh_topo.dfy ===
/** The single-switch assist topology: five hosts on one BMv2 switch, their
    addresses, the switch's port numbering, and the `senddistress` console
    command. */
module CfhTopo {
  import opened Options
  import opened Text
  import opened Addresses

  // ------------------------------------------------------------ addresses

  /** The helpers h3, h4 and h5, created by `range(3, 6)`. */
  const HelperCount: nat := 3

  /** h1 (the D-host), h2 (the RDMA host) and the helpers h3..h5. */
  predicate IsTopoHost(i: nat)
  {
    1 <= i <= 2 + HelperCount
  }

  /** The `ip=` argument host `h{i}` is created with: `10.0.0.5/24` for h1,
      `10.0.0.6/24` for h2, and `10.0.0.{i+2}/24` for each helper. */
  function IpArg(i: nat): string
    requires IsTopoHost(i)
  {
    if i == 1 then "10.0.0.5/24"
    else if i == 2 then "10.0.0.6/24"
    else "10.0.0." + Decimal(i + 2) + "/24"
  }

  /** The address a host reports, read from its creation argument. */
  function HostAddress(i: nat): Option<Ipv4>
    requires IsTopoHost(i)
  {
    ParseIpv4(StripPrefixLen(IpArg(i)))
  }

  /** `10.0.0.{d}` is the dotted-decimal text of `[10, 0, 0, d]`. */
  lemma SubnetText(d: nat)
    requires d < 256
    ensures "10.0.0." + Decimal(d) == IpText([10, 0, 0, d])
  {
    var x := Decimal(d);
    assert DigitChar(1) == '1' && DigitChar(0) == '0';
    assert Decimal(10) == "10" && Decimal(0) == "0";
    assert DecimalAll([10, 0, 0, d]) == ["10", "0", "0", x];
    SubnetJoinNested(x);
    SubnetPrefix(x);
  }

  /** The joined pieces of a `10.0.0.x` address, as nested concatenations. */
  lemma SubnetJoinNested(x: string)
    ensures Join(["10", "0", "0", x], '.') == "10" + "." + ("0" + "." + ("0" + "." + x))
  {
    JoinCons("0", [x], '.');
    JoinCons("0", ["0", x], '.');
    JoinCons("10", ["0", "0", x], '.');
    assert Join([x], '.') == x;
    assert ["0"] + [x] == ["0", x];
    assert ["0"] + ["0", x] == ["0", "0", x];
    assert ["10"] + ["0", "0", x] == ["10", "0", "0", x];
  }

  /** The three fixed octets regrouped into their literal prefix. */
  lemma SubnetPrefix(tail: string)
    ensures "10" + "." + ("0" + "." + ("0" + "." + tail)) == "10.0.0." + tail
  {
    var p1 := "0" + ".";
    var p2 := "0" + "." + p1;
    var p3 := "10" + "." + p2;
    assert p1 + tail == "0" + "." + tail;
    assert "0" + "." + (p1 + tail) == p2 + tail;
    assert "10" + "." + (p2 + tail) == p3 + tail;
    assert p3 == "10.0.0.";
  }

  /** `10.0.0.{d}/24` stripped of its prefix length reads as `10.0.0.d`. */
  lemma SubnetArg(d: nat)
    requires d < 256
    ensures ParseIpv4(StripPrefixLen("10.0.0." + Decimal(d) + "/24")) == Some([10, 0, 0, d])
  {
    SubnetText(d);
    StripSlash24([10, 0, 0, d]);
  }

  /** The last octet of host `h{i}`'s address. */
  function LastOctet(i: nat): nat
  {
    if i <= 2 then i + 4 else i + 2
  }

  /** h1 and h2 are at .5 and .6; helper `h{i}` is at `.{i+2}`. */
  lemma HostAddresses(i: nat)
    requires IsTopoHost(i)
    ensures HostAddress(i) == Some([10, 0, 0, LastOctet(i)])
  {
    if i <= 2 {
      assert DigitChar(5) == '5' && DigitChar(6) == '6';
      assert Decimal(5) == "5" && Decimal(6) == "6";
      assert IpArg(i) == "10.0.0." + Decimal(i + 4) + "/24";
      SubnetArg(i + 4);
    } else {
      SubnetArg(i + 2);
    }
  }

  /** Two different hosts share an address exactly when they are h1 and h3
      (10.0.0.5) or h2 and h4 (10.0.0.6); only h5 (10.0.0.7) is unique. */
  lemma SharedAddresses(i: nat, j: nat)
    requires IsTopoHost(i) && IsTopoHost(j) && i < j
    ensures HostAddress(i) == HostAddress(j) <==> (i == 1 && j == 3) || (i == 2 && j == 4)
  {
    HostAddresses(i);
    HostAddresses(j);
    var a: Ipv4, b: Ipv4 := [10, 0, 0, LastOctet(i)], [10, 0, 0, LastOctet(j)];
    assert a == b <==> LastOctet(i) == LastOctet(j) by {
      if a == b {
        assert a[3] == b[3];
      }
    }
  }

  // ------------------------------------------------------------ port numbering

  /** One `-i {port}@{intf}` argument of the BMv2 launch line. */
  datatype Binding = Binding(port: nat, intf: string)

  /** The BMv2 port bindings: ports 1 and 2 on the switch's first two
      interfaces (h1's and h2's links), then helper `k` (from 0) on port
      `3+k` and interface `intfs[2+k]`. An interface list too short for the
      helpers raises `IndexError`, modelled as `None`. Given that the links
      were added in the order h1, h2, h3, h4, h5, port `p` faces host `h{p}`. */
  method PortBindings(intfs: seq<string>, helperCount: nat) returns (r: Option<seq<Binding>>)
    ensures r.Some? <==> 2 + helperCount <= |intfs|
    ensures r.Some? ==> |r.value| == 2 + helperCount
    ensures r.Some? ==> forall k :: 0 <= k < |r.value| ==> r.value[k] == Binding(k + 1, intfs[k])
  {
    if |intfs| < 2 {
      return None;
    }
    var bs := [Binding(1, intfs[0]), Binding(2, intfs[1])];
    var idx := 3;
    while idx < 3 + helperCount
      invariant 3 <= idx <= 3 + helperCount
      invariant |bs| == idx - 1 && |bs| <= |intfs|
      invariant forall k :: 0 <= k < |bs| ==> bs[k] == Binding(k + 1, intfs[k])
    {
      if idx - 1 >= |intfs| {
        return None;
      }
      bs := bs + [Binding(idx, intfs[idx - 1])];
      idx := idx + 1;
    }
    return Some(bs);
  }

  /** The launch line's bindings for this topology's helpers: given at
      least one interface per host, every host `h{i}` gets port `i` on the
      `i`-th interface, and every bound port belongs to a host. */
  method LaunchBindings(intfs: seq<string>) returns (r: Option<seq<Binding>>)
    ensures r.Some? <==> 5 <= |intfs|
    ensures r.Some? ==> |r.value| == 2 + HelperCount
    ensures r.Some? ==> forall i: nat :: IsTopoHost(i) ==> i <= |r.value| && r.value[i - 1] == Binding(i, intfs[i - 1])
    ensures r.Some? ==> forall k :: 0 <= k < |r.value| ==> IsTopoHost(r.value[k].port)
  {
    r := PortBindings(intfs, HelperCount);
  }

  // ------------------------------------------------------------ senddistress

  /** What `senddistress <src> <dst_ip>` does with its line. */
  datatype DistressOutcome =
    | Usage
    | HostNotFound(name: string)
    | Send(src: string, dstIp: string)

  /** The console's argument checks: exactly two whitespace-separated words,
      the first naming a node of the network (`nodes`). */
  function SendDistress(line: string, nodes: set<string>): (r: DistressOutcome)
    ensures r.Usage? <==> |SplitWords(line)| != 2
    ensures r.HostNotFound? <==> |SplitWords(line)| == 2 && SplitWords(line)[0] !in nodes
    ensures r.HostNotFound? ==> r.name == SplitWords(line)[0]
    ensures r.Send? ==> r.src in nodes && SplitWords(line) == [r.src, r.dstIp]
  {
    var args := SplitWords(line);
    if |args| != 2 then Usage
    else if args[0] !in nodes then HostNotFound(args[0])
    else Send(args[0], args[1])
  }

  /** The line the console prints for each outcome. */
  function OutcomeText(r: DistressOutcome): string
  {
    match r
    case Usage => "Usage: senddistress <src> <dst_ip>"
    case HostNotFound(name) => "Host " + name + " not found"
    case Send(src, dst) => "Sending distress packet from " + src + " -> " + dst
  }

  /** The printed line names what happened: the fixed usage text, the
      unknown node's name as the second of four words, or the source node
      and the destination as the fifth and seventh of seven words. */
  lemma OutcomeLine(line: string, nodes: set<string>)
    ensures var r, ws := SendDistress(line, nodes), SplitWords(line);
      && (r.Usage? ==> OutcomeText(r) == "Usage: senddistress <src> <dst_ip>")
      && (r.HostNotFound? ==> SplitWords(OutcomeText(r)) == ["Host", ws[0], "not", "found"])
      && (r.Send? ==> SplitWords(OutcomeText(r))
                      == ["Sending", "distress", "packet", "from", ws[0], "->", ws[1]])
  {
    var r, ws := SendDistress(line, nodes), SplitWords(line);
    if r.HostNotFound? {
      NotFoundWords(ws[0]);
    } else if r.Send? {
      SendingWords(ws[0], ws[1]);
    }
  }

  lemma NotFoundWords(name: string)
    requires IsWord(name)
    ensures SplitWords("Host " + name + " not found") == ["Host", name, "not", "found"]
  {
    var s2 := "not" + (" " + "found");
    OutcomeLiteralsAreWords();
    SplitThree(name, "not", "found");
    RegroupThreeWords(name, "not", "found");
    SplitWordsWordThen("Host", name + (" " + s2));
    NotFoundText(name, s2);
  }

  /** The fixed words of the two outcome lines. */
  lemma OutcomeLiteralsAreWords()
    ensures IsWord("Host") && IsWord("not") && IsWord("found")
    ensures IsWord("Sending") && IsWord("distress") && IsWord("packet")
    ensures IsWord("from") && IsWord("->")
  {
  }

  lemma NotFoundText(name: string, s2: string)
    requires s2 == "not" + (" " + "found")
    ensures "Host " + name + " not found" == "Host" + (" " + (name + (" " + s2)))
  {
    assert "Host " == "Host" + " ";
    assert " not found" == " " + s2;
    RegroupFour("Host", " ", name, " " + s2);
  }

  lemma RegroupThreeWords(a: string, b: string, c: string)
    ensures a + (" " + (b + (" " + c))) == a + " " + b + " " + c
  {
  }

  lemma RegroupFour(a: string, b: string, c: string, d: string)
    ensures a + b + c + d == a + (b + (c + d))
  {
  }

  lemma SendingWords(src: string, dst: string)
    requires IsWord(src) && IsWord(dst)
    ensures SplitWords("Sending distress packet from " + src + " -> " + dst)
         == ["Sending", "distress", "packet", "from", src, "->", dst]
  {
    var u5 := "->" + (" " + dst);
    var u4 := src + (" " + u5);
    OutcomeLiteralsAreWords();
    SplitThree(src, "->", dst);
    RegroupThreeWords(src, "->", dst);
    SplitWordsFourThen("Sending", "distress", "packet", "from", u4);
    SendingText(src, dst, u5, u4);
    SendingPrefix(u4);
  }

  lemma SendingText(src: string, dst: string, u5: string, u4: string)
    requires u5 == "->" + (" " + dst) && u4 == src + (" " + u5)
    ensures "Sending distress packet from " + src + " -> " + dst
         == "Sending distress packet from " + u4
  {
    assert " -> " == " " + "->" + " ";
    RegroupFour("Sending distress packet from ", src, " -> ", dst);
    RegroupFour(" ", "->", " ", dst);
  }

  lemma SendingPrefix(x: string)
    ensures "Sending distress packet from " + x
         == "Sending" + (" " + ("distress" + (" " + ("packet" + (" " + ("from" + (" " + x)))))))
  {
    var p1 := "from" + " ";
    var p2 := "packet" + " " + p1;
    var p3 := "distress" + " " + p2;
    var p4 := "Sending" + " " + p3;
    assert "from" + (" " + x) == p1 + x;
    assert "packet" + (" " + (p1 + x)) == p2 + x;
    assert "distress" + (" " + (p2 + x)) == p3 + x;
    assert "Sending" + (" " + (p3 + x)) == p4 + x;
    assert p4 == "Sending distress packet from ";
  }

  /** `senddistress src dst` sends from `src` to `dst` exactly when `src` is
      a node; otherwise it reports `src` as not found. */
  lemma SendDistressWords(src: string, dst: string, nodes: set<string>)
    requires IsWord(src) && IsWord(dst)
    ensures SendDistress(src + " " + dst, nodes) == Send(src, dst) <==> src in nodes
    ensures src !in nodes ==> SendDistress(src + " " + dst, nodes) == HostNotFound(src)
  {
    SplitTwo(src, dst);
  }

  /** Leading whitespace never changes the outcome. */
  lemma SendDistressLeadingSpace(line: string, nodes: set<string>)
    ensures SendDistress(" " + line, nodes) == SendDistress(line, nodes)
  {
    SplitWordsSpace(line);
  }

  /** A lone word, or three words, is a usage error whatever the nodes. */
  lemma SendDistressArity(a: string, b: string, c: string, nodes: set<string>)
    requires IsWord(a) && IsWord(b) && IsWord(c)
    ensures SendDistress(a, nodes) == Usage
    ensures SendDistress(a + " " + b + " " + c, nodes) == Usage
  {
    SplitWordsCons(a, []);
    assert a + [] == a;
    SplitThree(a, b, c);
  }
}

=== FILE: clos_inventory.dfy ===
/** The host inventory of the CLOS topology: twelve hosts h1..h12 in three
    racks of four, each with an address, a MAC and a port on its rack's
    top-of-rack switch, all derived from the host index alone. */
module ClosInventory {
  import opened Options
  import opened Text
  import opened Addresses

  /** `NUM_HOSTS_PER_RACK`. */
  const HostsPerRack: nat := 4
  const NumRacks: nat := 3

  /** The hosts are created for `i in range(1, 13)`. */
  predicate IsHostIndex(i: int)
  {
    1 <= i <= NumRacks * HostsPerRack
  }

  /** Host indices in creation order: the list `hosts`. */
  const Hosts: seq<nat> := [1, 2, 3, 4, 5, 6, 7, 8, 9, 10, 11, 12]

  lemma HostsAreIndices()
    ensures |Hosts| == 12
    ensures forall k :: 0 <= k < |Hosts| ==> Hosts[k] == k + 1 && IsHostIndex(Hosts[k])
  {
  }

  /** The host name `h{i}`. */
  function HostName(i: nat): string
  {
    "h" + Decimal(i)
  }

  /** `int(h.name[1:])`: the index recovered from a host name. */
  function HostIndexOf(name: string): Option<nat>
  {
    if name == [] then None else ParseDecimal(name[1..])
  }

  /** The index read back from `h{i}` is `i`. */
  lemma HostIndexOfName(i: nat)
    ensures HostIndexOf(HostName(i)) == Some(i)
  {
    assert HostName(i)[1..] == Decimal(i);
    ParseDecimalOfDecimal(i);
  }

  /** Zero-based rack of host `i`: `(i-1)//4`. */
  function Rack(i: nat): nat
    requires IsHostIndex(i)
  {
    (i - 1) / HostsPerRack
  }

  /** The address `10.0.{(i-1)//4}.{i}`. */
  function HostIp(i: nat): Ipv4
    requires IsHostIndex(i)
  {
    [10, 0, Rack(i), i]
  }

  /** The `ip=` argument given at host creation, with its `/24`. */
  function HostIpArg(i: nat): string
    requires IsHostIndex(i)
  {
    "10.0." + Decimal((i - 1) / 4) + "." + Decimal(i) + "/24"
  }

  /** The address text stored for a host is `HostIp` in dotted decimal. */
  lemma HostIpArgMatches(i: nat)
    requires IsHostIndex(i)
    ensures StripPrefixLen(HostIpArg(i)) == IpText(HostIp(i))
    ensures ParseIpv4(StripPrefixLen(HostIpArg(i))) == Some(HostIp(i))
  {
    var ip := HostIp(i);
    var ps := DecimalAll(ip);
    assert DigitChar(1) == '1' && DigitChar(0) == '0';
    assert Decimal(10) == "10" && Decimal(0) == "0";
    assert ps == ["10", "0", Decimal(Rack(i)), Decimal(i)];
    var text := IpText(ip);
    assert Join(ps[3..], '.') == Decimal(i);
    assert Join(ps[2..], '.') == Decimal(Rack(i)) + "." + Decimal(i);
    assert Join(ps[1..], '.') == "0" + "." + (Decimal(Rack(i)) + "." + Decimal(i));
    assert text == "10" + "." + ("0" + "." + (Decimal(Rack(i)) + "." + Decimal(i)));
    assert HostIpArg(i) == text + "/24";
    DecimalHasNo(Rack(i), '/');
    DecimalHasNo(i, '/');
    assert '/' !in text;
    SplitCharPrefix(text, "/24", '/');
    assert SplitChar("/24", '/')[0] == [];
    assert text + [] == text;
    ParseIpText(ip);
  }

  /** The MAC `00:00:00:00:{(i-1)//4+1:02x}:{i:02x}`. */
  function HostMac(i: nat): Mac
    requires IsHostIndex(i)
  {
    [0, 0, 0, 0, Rack(i) + 1, i]
  }

  /** The `mac=` argument given at host creation. */
  function HostMacArg(i: nat): string
    requires IsHostIndex(i)
  {
    "00:00:00:00:" + Hex2((i - 1) / 4 + 1) + ":" + Hex2(i)
  }

  /** The MAC text given at creation is `HostMac` rendered. */
  lemma HostMacArgMatches(i: nat)
    requires IsHostIndex(i)
    ensures MacText(HostMac(i)) == HostMacArg(i)
    ensures ParseMac(HostMacArg(i)) == Some(HostMac(i))
  {
    HostMacText(i);
    ParseMacText(HostMac(i));
  }

  lemma HostMacText(i: nat)
    requires IsHostIndex(i)
    ensures MacText(HostMac(i)) == HostMacArg(i)
  {
    var x, y := Hex2(Rack(i) + 1), Hex2(i);
    assert HexChar(0) == '0';
    assert Hex2(0) == "00";
    assert HexAll(HostMac(i)) == ["00", "00", "00", "00", x, y];
    MacJoinNested(x, y);
    MacPrefix(x + ":" + y);
    assert "00:00:00:00:" + (x + ":" + y) == "00:00:00:00:" + x + ":" + y;
  }

  /** The joined pieces of a host MAC, as nested concatenations. */
  lemma MacJoinNested(x: string, y: string)
    ensures Join(["00", "00", "00", "00", x, y], ':')
         == "00" + ":" + ("00" + ":" + ("00" + ":" + ("00" + ":" + (x + ":" + y))))
  {
    JoinCons(x, [y], ':');
    JoinCons("00", [x, y], ':');
    JoinCons("00", ["00", x, y], ':');
    JoinCons("00", ["00", "00", x, y], ':');
    JoinCons("00", ["00", "00", "00", x, y], ':');
    assert Join([y], ':') == y;
    assert [x] + [y] == [x, y];
    assert ["00"] + [x, y] == ["00", x, y];
    assert ["00"] + ["00", x, y] == ["00", "00", x, y];
    assert ["00"] + ["00", "00", x, y] == ["00", "00", "00", x, y];
    assert ["00"] + ["00", "00", "00", x, y] == ["00", "00", "00", "00", x, y];
  }

  /** The four zero octets regrouped into their literal prefix. */
  lemma MacPrefix(tail: string)
    ensures "00" + ":" + ("00" + ":" + ("00" + ":" + ("00" + ":" + tail)))
         == "00:00:00:00:" + tail
  {
    var p1 := "00" + ":";
    var p2 := "00" + ":" + p1;
    var p3 := "00" + ":" + p2;
    var p4 := "00" + ":" + p3;
    assert p1 + tail == "00" + ":" + tail;
    assert "00" + ":" + (p1 + tail) == p2 + tail;
    assert "00" + ":" + (p2 + tail) == p3 + tail;
    assert "00" + ":" + (p3 + tail) == p4 + tail;
    assert p4 == "00:00:00:00:";
  }

  /** The host's port on its top-of-rack switch: `((i-1) % 4) + 1`. */
  function TorPort(i: nat): (p: nat)
    requires IsHostIndex(i)
    ensures 1 <= p <= HostsPerRack
  {
    ((i - 1) % HostsPerRack) + 1
  }

  /** One entry of `host_info`. */
  datatype HostInfo = HostInfo(ip: Ipv4, mac: Mac, port: nat)

  function Info(i: nat): HostInfo
    requires IsHostIndex(i)
  {
    HostInfo(HostIp(i), HostMac(i), TorPort(i))
  }

  /** The switch name `tor{k}` of rack `k` (one-based). */
  function TorName(k: nat): string
  {
    "tor" + Decimal(k)
  }

  const TorNames: seq<string> := ["tor1", "tor2", "tor3"]

  lemma TorNamesAreRackNames()
    ensures TorNames == [TorName(1), TorName(2), TorName(3)]
  {
    assert DigitChar(1) == '1' && DigitChar(2) == '2' && DigitChar(3) == '3';
    assert Decimal(1) == "1" && Decimal(2) == "2" && Decimal(3) == "3";
    assert TorName(1) == "tor1" && TorName(2) == "tor2" && TorName(3) == "tor3";
  }

  /** The `tor_hosts` dictionary: a lookup of an unknown name raises
      `KeyError`, here `None`. */
  function TorHosts(tor: string): (r: Option<seq<nat>>)
    ensures r.Some? <==> tor in TorNames
    ensures r.Some? ==> |r.value| == HostsPerRack
    ensures r.Some? ==> forall k :: 0 <= k < |r.value| ==> IsHostIndex(r.value[k])
  {
    if tor == "tor1" then Some(Hosts[0..4])
    else if tor == "tor2" then Some(Hosts[4..8])
    else if tor == "tor3" then Some(Hosts[8..12])
    else None
  }

  /** `tor{k}` holds exactly h(4k-3) .. h(4k), in index order. */
  lemma TorHostsOfRack(k: nat)
    requires 1 <= k <= NumRacks
    ensures TorHosts(TorName(k)).Some?
    ensures forall j :: 0 <= j < HostsPerRack ==>
      TorHosts(TorName(k)).value[j] == 4 * k - 3 + j
  {
    TorNamesAreRackNames();
  }

  /** The racks partition h1..h12: host `i` is attached to `tor{Rack(i)+1}`
      and to no other switch. */
  lemma TorHostsPartition(i: nat, tor: string)
    requires IsHostIndex(i)
    ensures TorHosts(tor).Some? && i in TorHosts(tor).value
            <==> tor == TorName(Rack(i) + 1)
  {
    TorNamesAreRackNames();
    var k := Rack(i) + 1;
    TorHostsOfRack(k);
    var hs := TorHosts(TorName(k)).value;
    assert hs[(i - 1) % 4] == i;
    if TorHosts(tor).Some? && i in TorHosts(tor).value {
      assert tor in TorNames;
      var hs' := TorHosts(tor).value;
      var j :| 0 <= j < |hs'| && hs'[j] == i;
      if tor == "tor1" {
        assert Rack(i) == 0;
      } else if tor == "tor2" {
        assert Rack(i) == 1;
      } else {
        assert Rack(i) == 2;
      }
    }
  }

  /** Every host appears in some rack: the racks cover h1..h12. */
  lemma TorHostsCover(i: nat)
    requires IsHostIndex(i)
    ensures exists tor :: tor in TorNames && i in TorHosts(tor).value
  {
    TorHostsPartition(i, TorName(Rack(i) + 1));
    TorNamesAreRackNames();
  }

  /** No two hosts share a MAC or an address: the derivation is injective,
      so no conflict check is needed. */
  lemma AddressesUnique(i: nat, j: nat)
    requires IsHostIndex(i) && IsHostIndex(j)
    ensures HostMac(i) == HostMac(j) <==> i == j
    ensures HostIp(i) == HostIp(j) <==> i == j
  {
    if HostMac(i) == HostMac(j) {
      assert HostMac(i)[5] == HostMac(j)[5];
    }
    if HostIp(i) == HostIp(j) {
      assert HostIp(i)[3] == HostIp(j)[3];
    }
  }

  /** Hosts of one rack sit on distinct ports. */
  lemma PortsUniqueInRack(i: nat, j: nat)
    requires IsHostIndex(i) && IsHostIndex(j)
    requires Rack(i) == Rack(j)
    ensures TorPort(i) == TorPort(j) <==> i == j
  {
  }
}

=== FILE: clos_provisioning.dfy ===
/** The runtime provisioning of the CLOS fabric: which switch each CLI call
    is issued from, which control port it targets, and in what order. */
module ClosProvisioning {
  import opened Options
  import opened SwitchCli
  import opened ClosInventory
  import opened FabricRules
  import opened Multicast

  /** The five switches, in the order their BMv2 instances are launched. */
  const Switches: seq<string> := ["tor1", "tor2", "tor3", "spine1", "spine2"]

  /** The `i`-th switch launched listens on `THRIFT_BASE + i`. */
  function ControlPort(i: nat): nat
    requires i < |Switches|
  {
    ThriftBase + i
  }

  /** A CLI call issued from a switch's shell. */
  datatype Invocation = Invocation(switch: string, call: CliCall)

  /** The call reaches the BMv2 instance of the switch it is issued from. */
  predicate ReachesOwnSwitch(inv: Invocation)
  {
    exists i :: 0 <= i < |Switches| && Switches[i] == inv.switch
                && inv.call.thriftPort == ControlPort(i)
  }

  /** The calls of `calls`, each issued from `switch`. */
  function IssuedFrom(switch: string, calls: seq<CliCall>): (invs: seq<Invocation>)
    ensures |invs| == |calls|
    ensures forall k :: 0 <= k < |calls| ==> invs[k].switch == switch && invs[k].call == calls[k]
  {
    seq(|calls|, k requires 0 <= k < |calls| => Invocation(switch, calls[k]))
  }

  /** Everything configured at start-up, in order: tor1's L2 rules, tor1's
      routes, then multicast and mirroring on tor1. */
  function ProvisioningPlan(): seq<Invocation>
  {
    TorNamesAreRackNames();
    IssuedFrom("tor1",
      InstallL2Rules(BuildL2Entries("tor1").value)
      + InstallIpv4Routes(BuildIpv4Routes("tor1").value)
      + McCalls(ClosMulticast))
  }

  /** The plan is tor1's four L2 rules, its four routes and the six
      multicast commands, in that order, each read back from its text. */
  lemma ProvisioningPlanContents()
    ensures |ProvisioningPlan()| == 14
    ensures forall k :: 0 <= k < 14 ==> ProvisioningPlan()[k].switch == "tor1"
    ensures forall k :: 0 <= k < 4 ==>
      ParseL2Command(ProvisioningPlan()[k].call.command) == Some(BuildL2Entries("tor1").value[k])
    ensures forall k :: 4 <= k < 8 ==>
      ParseRouteCommand(ProvisioningPlan()[k].call.command) == Some(BuildIpv4Routes("tor1").value[k - 4])
    ensures forall k :: 8 <= k < 14 ==>
      ParseMcCommand(ProvisioningPlan()[k].call.command) == Some(ClosMulticast[k - 8])
  {
    TorNamesAreRackNames();
    var l2 := InstallL2Rules(BuildL2Entries("tor1").value);
    var rs := InstallIpv4Routes(BuildIpv4Routes("tor1").value);
    var mc := McCalls(ClosMulticast);
    var calls := l2 + rs + mc;
    assert |l2| == 4 && |rs| == 4 && |mc| == 6;
    assert forall k :: 0 <= k < 4 ==> calls[k] == l2[k];
    assert forall k :: 4 <= k < 8 ==> calls[k] == rs[k - 4];
    assert forall k :: 8 <= k < 14 ==> calls[k] == mc[k - 8];
  }

  /** Every call of the plan reaches the switch it is issued from, because
      all of them are issued from tor1, the switch on `THRIFT_BASE`. */
  lemma ProvisioningReachesOwnSwitch()
    ensures forall inv :: inv in ProvisioningPlan() ==> ReachesOwnSwitch(inv)
  {
    ProvisioningPlanContents();
    TorNamesAreRackNames();
    var calls := InstallL2Rules(BuildL2Entries("tor1").value)
      + InstallIpv4Routes(BuildIpv4Routes("tor1").value)
      + McCalls(ClosMulticast);
    forall inv | inv in ProvisioningPlan()
      ensures ReachesOwnSwitch(inv)
    {
      var k :| 0 <= k < |ProvisioningPlan()| && ProvisioningPlan()[k] == inv;
      assert inv.call == calls[k];
      assert calls[k].thriftPort == ThriftBase;
      assert Switches[0] == inv.switch && inv.call.thriftPort == ControlPort(0);
    }
  }

  /** Only tor1 listens on `THRIFT_BASE`: the same install calls issued from
      any other switch would reach tor1 instead. */
  lemma OtherSwitchesMissed(i: nat, rules: seq<L2Entry>, routes: seq<Route>)
    requires 0 < i < |Switches|
    ensures forall inv :: inv in IssuedFrom(Switches[i], InstallL2Rules(rules) + InstallIpv4Routes(routes))
                          ==> !ReachesOwnSwitch(inv)
  {
    var calls := InstallL2Rules(rules) + InstallIpv4Routes(routes);
    assert forall k :: 0 <= k < |calls| ==> calls[k].thriftPort == ThriftBase;
    forall inv | inv in IssuedFrom(Switches[i], calls)
      ensures !ReachesOwnSwitch(inv)
    {
      assert inv.switch == Switches[i] && inv.call.thriftPort == ThriftBase;
    }
  }
}

=== FILE: fabric_rules.dfy ===
/** The forwarding rules derived for a top-of-rack switch: one L2 entry and
    one /32 IPv4 route per attached host, in host order, and the
    `table_add` command text they are installed with. */
module FabricRules {
  import opened Options
  import opened Text
  import opened Addresses
  import opened ClosInventory
  import opened SwitchCli

  /** `(mac, port)`: frames to `mac` leave through `port`. */
  datatype L2Entry = L2Entry(mac: Mac, port: nat)

  /** `(ip, port, mac)`: packets to `ip/32` leave through `port` towards `mac`. */
  datatype Route = Route(ip: Ipv4, port: nat, mac: Mac)

  /** `build_l2_entries_for_tor`: one entry per attached host, in the order of
      `tor_hosts`; an unknown switch name raises `KeyError` (`None`). */
  function BuildL2Entries(tor: string): (r: Option<seq<L2Entry>>)
    ensures r.Some? <==> tor in TorNames
    ensures r.Some? ==> |r.value| == HostsPerRack
    ensures r.Some? ==> forall k :: 0 <= k < |r.value| ==> r.value[k].port == k + 1
  {
    match TorHosts(tor)
    case None => None
    case Some(hs) =>
      Some(seq(|hs|, k requires 0 <= k < |hs| =>
        var info := Info(hs[k]);
        L2Entry(info.mac, info.port)))
  }

  /** `build_ipv4_routes_for_tor`: one route per attached host, in the same
      order. */
  function BuildIpv4Routes(tor: string): (r: Option<seq<Route>>)
    ensures r.Some? <==> tor in TorNames
    ensures r.Some? ==> |r.value| == HostsPerRack
  {
    match TorHosts(tor)
    case None => None
    case Some(hs) =>
      Some(seq(|hs|, k requires 0 <= k < |hs| =>
        var info := Info(hs[k]);
        Route(info.ip, info.port, info.mac)))
  }

  /** Entry `j` of `tor{k}` is host h(4k-3+j): its MAC, address and port
      `j+1`. */
  lemma EntriesOfRack(k: nat, j: nat)
    requires 1 <= k <= NumRacks && j < HostsPerRack
    ensures IsHostIndex(4 * k - 3 + j)
    ensures BuildL2Entries(TorName(k)).Some? && BuildIpv4Routes(TorName(k)).Some?
    ensures BuildL2Entries(TorName(k)).value[j]
            == L2Entry(HostMac(4 * k - 3 + j), j + 1)
    ensures BuildIpv4Routes(TorName(k)).value[j]
            == Route(HostIp(4 * k - 3 + j), j + 1, HostMac(4 * k - 3 + j))
  {
    TorHostsOfRack(k);
    TorNamesAreRackNames();
  }

  /** For tor1: MACs 00:00:00:00:01:01 .. 00:00:00:00:01:04 on ports 1..4. */
  lemma Tor1Entries()
    ensures BuildL2Entries("tor1") == Some([
      L2Entry([0, 0, 0, 0, 1, 1], 1), L2Entry([0, 0, 0, 0, 1, 2], 2),
      L2Entry([0, 0, 0, 0, 1, 3], 3), L2Entry([0, 0, 0, 0, 1, 4], 4)])
    ensures BuildIpv4Routes("tor1") == Some([
      Route([10, 0, 0, 1], 1, [0, 0, 0, 0, 1, 1]), Route([10, 0, 0, 2], 2, [0, 0, 0, 0, 1, 2]),
      Route([10, 0, 0, 3], 3, [0, 0, 0, 0, 1, 3]), Route([10, 0, 0, 4], 4, [0, 0, 0, 0, 1, 4])])
  {
    TorNamesAreRackNames();
    assert TorName(1) == "tor1";
    EntriesOfRack(1, 0);
    EntriesOfRack(1, 1);
    EntriesOfRack(1, 2);
    EntriesOfRack(1, 3);
    assert Rack(1) == 0 && Rack(2) == 0 && Rack(3) == 0 && Rack(4) == 0;
    var l2 := BuildL2Entries("tor1").value;
    var rs := BuildIpv4Routes("tor1").value;
    assert |l2| == 4 && |rs| == 4;
    assert l2[0] == L2Entry([0, 0, 0, 0, 1, 1], 1) && l2[1] == L2Entry([0, 0, 0, 0, 1, 2], 2);
    assert l2[2] == L2Entry([0, 0, 0, 0, 1, 3], 3) && l2[3] == L2Entry([0, 0, 0, 0, 1, 4], 4);
    assert rs[0] == Route([10, 0, 0, 1], 1, [0, 0, 0, 0, 1, 1]);
    assert rs[1] == Route([10, 0, 0, 2], 2, [0, 0, 0, 0, 1, 2]);
    assert rs[2] == Route([10, 0, 0, 3], 3, [0, 0, 0, 0, 1, 3]);
    assert rs[3] == Route([10, 0, 0, 4], 4, [0, 0, 0, 0, 1, 4]);
    assert l2 == [L2Entry([0, 0, 0, 0, 1, 1], 1), L2Entry([0, 0, 0, 0, 1, 2], 2),
                  L2Entry([0, 0, 0, 0, 1, 3], 3), L2Entry([0, 0, 0, 0, 1, 4], 4)];
    assert rs == [Route([10, 0, 0, 1], 1, [0, 0, 0, 0, 1, 1]), Route([10, 0, 0, 2], 2, [0, 0, 0, 0, 1, 2]),
                  Route([10, 0, 0, 3], 3, [0, 0, 0, 0, 1, 3]), Route([10, 0, 0, 4], 4, [0, 0, 0, 0, 1, 4])];
  }

  /** The route list runs parallel to the L2 list: same switches, same
      length, and position `k` carries the same port and MAC. */
  lemma RoutesMatchL2(tor: string)
    ensures BuildIpv4Routes(tor).Some? <==> BuildL2Entries(tor).Some?
    ensures BuildL2Entries(tor).Some? ==>
      var l2, rs := BuildL2Entries(tor).value, BuildIpv4Routes(tor).value;
      && |rs| == |l2|
      && forall k :: 0 <= k < |rs| ==> rs[k].port == l2[k].port && rs[k].mac == l2[k].mac
  {
  }

  /** Within one switch's lists no two entries share a MAC, an address or a
      port, so no key is installed twice. */
  lemma EntriesDistinct(tor: string, j: nat, k: nat)
    requires tor in TorNames
    requires j < k < HostsPerRack
    ensures BuildL2Entries(tor).value[j].mac != BuildL2Entries(tor).value[k].mac
    ensures BuildL2Entries(tor).value[j].port != BuildL2Entries(tor).value[k].port
    ensures BuildIpv4Routes(tor).value[j].ip != BuildIpv4Routes(tor).value[k].ip
  {
    TorNamesAreRackNames();
    var r: nat :| 1 <= r <= NumRacks && tor == TorName(r);
    TorHostsOfRack(r);
    var hs := TorHosts(tor).value;
    assert hs[j] == 4 * r - 3 + j && hs[k] == 4 * r - 3 + k;
    AddressesUnique(hs[j], hs[k]);
  }

  /** Each host's entry and route are installed on its own rack's switch. */
  lemma HostHasEntry(i: nat)
    requires IsHostIndex(i)
    ensures BuildL2Entries(TorName(Rack(i) + 1)).Some?
    ensures L2Entry(HostMac(i), TorPort(i)) in BuildL2Entries(TorName(Rack(i) + 1)).value
    ensures Route(HostIp(i), TorPort(i), HostMac(i)) in BuildIpv4Routes(TorName(Rack(i) + 1)).value
  {
    var k, j := Rack(i) + 1, (i - 1) % HostsPerRack;
    EntriesOfRack(k, j);
    assert 4 * k - 3 + j == i;
  }

  /** Every entry on a switch belongs to a host attached to that switch. */
  lemma EntryHasHost(tor: string, e: L2Entry)
    requires tor in TorNames
    requires e in BuildL2Entries(tor).value
    ensures exists i :: IsHostIndex(i) && i in TorHosts(tor).value
                        && e == L2Entry(HostMac(i), TorPort(i))
  {
    var es := BuildL2Entries(tor).value;
    var k :| 0 <= k < |es| && es[k] == e;
    var i := TorHosts(tor).value[k];
    assert e == L2Entry(HostMac(i), TorPort(i));
  }

  // ------------------------------------------------------------ command text

  /** The L2 install command, `table_add l2_forward set_l2_egress_port {mac} => {port}`. */
  function L2CommandText(e: L2Entry): string
  {
    "table_add l2_forward set_l2_egress_port " + MacText(e.mac) + " => " + Decimal(e.port)
  }

  /** The route install command,
      `table_add MyIngress.ipv4_lpm set_egress {ip}/32 => {port} {mac}`. */
  function RouteCommandText(r: Route): string
  {
    "table_add MyIngress.ipv4_lpm set_egress " + IpText(r.ip) + "/32 => "
      + Decimal(r.port) + " " + MacText(r.mac)
  }

  /** A reference reading of an L2 install command: split on whitespace,
      then read the words. */
  function ParseL2Command(s: string): Option<L2Entry>
  {
    var ws := SplitWords(s);
    if |ws| == 6 && ws[0] == "table_add" && ws[1] == "l2_forward"
       && ws[2] == "set_l2_egress_port" && ws[4] == "=>"
    then
      match (ParseMac(ws[3]), ParseDecimal(ws[5]))
      case (Some(m), Some(p)) => Some(L2Entry(m, p))
      case _ => None
    else None
  }

  /** A reference reading of a route install command; the key is an address
      with `/32`. */
  function ParseRouteCommand(s: string): Option<Route>
  {
    var ws := SplitWords(s);
    if |ws| == 7 && ws[0] == "table_add" && ws[1] == "MyIngress.ipv4_lpm"
       && ws[2] == "set_egress" && ws[4] == "=>"
       && |ws[3]| >= 3 && ws[3][|ws[3]| - 3..] == "/32"
    then
      match (ParseIpv4(ws[3][..|ws[3]| - 3]), ParseDecimal(ws[5]), ParseMac(ws[6]))
      case (Some(ip), Some(p), Some(m)) => Some(Route(ip, p, m))
      case _ => None
    else None
  }

  /** The words of an L2 install command. */
  function L2Words(e: L2Entry): (ws: seq<string>)
    ensures forall k :: 0 <= k < |ws| ==> IsWord(ws[k])
  {
    MacTextIsWord(e.mac);
    DecimalIsWord(e.port);
    ["table_add", "l2_forward", "set_l2_egress_port", MacText(e.mac), "=>", Decimal(e.port)]
  }

  /** The words of a route install command. */
  function RouteWords(r: Route): (ws: seq<string>)
    ensures forall k :: 0 <= k < |ws| ==> IsWord(ws[k])
  {
    IpTextIsWord(r.ip);
    MacTextIsWord(r.mac);
    DecimalIsWord(r.port);
    assert IsWord(IpText(r.ip) + "/32");
    ["table_add", "MyIngress.ipv4_lpm", "set_egress", IpText(r.ip) + "/32", "=>",
     Decimal(r.port), MacText(r.mac)]
  }

  /** The fixed words of the L2 command, regrouped into its literal prefix. */
  lemma L2Prefix(tail: string)
    ensures "table_add" + " " + ("l2_forward" + " " + ("set_l2_egress_port" + " " + tail))
         == "table_add l2_forward set_l2_egress_port " + tail
  {
    var p1 := "set_l2_egress_port" + " ";
    var p2 := "l2_forward" + " " + p1;
    var p3 := "table_add" + " " + p2;
    assert p1 + tail == "set_l2_egress_port" + " " + tail;
    assert "l2_forward" + " " + (p1 + tail) == p2 + tail;
    assert "table_add" + " " + (p2 + tail) == p3 + tail;
    assert p3 == "table_add l2_forward set_l2_egress_port ";
  }

  /** The fixed words of the route command, regrouped into its literal prefix. */
  lemma RoutePrefix(tail: string)
    ensures "table_add" + " " + ("MyIngress.ipv4_lpm" + " " + ("set_egress" + " " + tail))
         == "table_add MyIngress.ipv4_lpm set_egress " + tail
  {
    var p1 := "set_egress" + " ";
    var p2 := "MyIngress.ipv4_lpm" + " " + p1;
    var p3 := "table_add" + " " + p2;
    assert p1 + tail == "set_egress" + " " + tail;
    assert "MyIngress.ipv4_lpm" + " " + (p1 + tail) == p2 + tail;
    assert "table_add" + " " + (p2 + tail) == p3 + tail;
    assert p3 == "table_add MyIngress.ipv4_lpm set_egress ";
  }

  /** The variable words of the route command, regrouped as the command
      text groups them after its prefix `p`. */
  lemma RouteTail(p: string, ip: string, port: string, mac: string)
    ensures p + ((ip + "/32") + " " + ("=>" + " " + (port + " " + mac)))
         == p + ip + "/32 => " + port + " " + mac
  {
    var rest := port + " " + mac;
    assert "=>" + " " + rest == "=> " + rest;
    assert (ip + "/32") + " " + ("=> " + rest) == ip + ("/32" + " " + ("=> " + rest));
    assert "/32" + " " + ("=> " + rest) == "/32 => " + rest;
    assert p + (ip + ("/32 => " + rest)) == p + ip + "/32 => " + port + " " + mac;
  }

  /** The seven route words joined by spaces, grouped word by word. */
  lemma RouteJoinNested(key: string, port: string, mac: string)
    ensures Join(["table_add", "MyIngress.ipv4_lpm", "set_egress", key, "=>", port, mac], ' ')
         == "table_add" + " " + ("MyIngress.ipv4_lpm" + " " + ("set_egress" + " "
              + (key + " " + ("=>" + " " + (port + " " + mac)))))
  {
    JoinCons(port, [mac], ' ');
    JoinCons("=>", [port, mac], ' ');
    JoinCons(key, ["=>", port, mac], ' ');
    JoinCons("set_egress", [key, "=>", port, mac], ' ');
    JoinCons("MyIngress.ipv4_lpm", ["set_egress", key, "=>", port, mac], ' ');
    JoinCons("table_add", ["MyIngress.ipv4_lpm", "set_egress", key, "=>", port, mac], ' ');
    assert Join([mac], ' ') == mac;
    assert [port] + [mac] == [port, mac];
    assert ["=>"] + [port, mac] == ["=>", port, mac];
    assert [key] + ["=>", port, mac] == [key, "=>", port, mac];
    assert ["set_egress"] + [key, "=>", port, mac] == ["set_egress", key, "=>", port, mac];
    assert ["MyIngress.ipv4_lpm"] + ["set_egress", key, "=>", port, mac]
        == ["MyIngress.ipv4_lpm", "set_egress", key, "=>", port, mac];
    assert ["table_add"] + ["MyIngress.ipv4_lpm", "set_egress", key, "=>", port, mac]
        == ["table_add", "MyIngress.ipv4_lpm", "set_egress", key, "=>", port, mac];
  }

  /** The six L2 words joined by spaces, grouped word by word. */
  lemma L2JoinNested(mac: string, port: string)
    ensures Join(["table_add", "l2_forward", "set_l2_egress_port", mac, "=>", port], ' ')
         == "table_add" + " " + ("l2_forward" + " " + ("set_l2_egress_port" + " "
              + (mac + " " + ("=>" + " " + port))))
  {
    JoinCons("=>", [port], ' ');
    JoinCons(mac, ["=>", port], ' ');
    JoinCons("set_l2_egress_port", [mac, "=>", port], ' ');
    JoinCons("l2_forward", ["set_l2_egress_port", mac, "=>", port], ' ');
    JoinCons("table_add", ["l2_forward", "set_l2_egress_port", mac, "=>", port], ' ');
    assert Join([port], ' ') == port;
    assert ["=>"] + [port] == ["=>", port];
    assert [mac] + ["=>", port] == [mac, "=>", port];
    assert ["set_l2_egress_port"] + [mac, "=>", port] == ["set_l2_egress_port", mac, "=>", port];
    assert ["l2_forward"] + ["set_l2_egress_port", mac, "=>", port]
        == ["l2_forward", "set_l2_egress_port", mac, "=>", port];
    assert ["table_add"] + ["l2_forward", "set_l2_egress_port", mac, "=>", port]
        == ["table_add", "l2_forward", "set_l2_egress_port", mac, "=>", port];
  }

  /** The words of `L2Words` joined by single spaces are the command text. */
  lemma L2TextIsJoin(e: L2Entry)
    ensures L2CommandText(e) == Join(L2Words(e), ' ')
  {
    var mac, port := MacText(e.mac), Decimal(e.port);
    L2JoinNested(mac, port);
    var tail := mac + " " + ("=>" + " " + port);
    assert tail == mac + " => " + port;
    L2Prefix(tail);
  }

  lemma RouteTextIsJoin(r: Route)
    ensures RouteCommandText(r) == Join(RouteWords(r), ' ')
  {
    var ip, port, mac := IpText(r.ip), Decimal(r.port), MacText(r.mac);
    var tail := (ip + "/32") + " " + ("=>" + " " + (port + " " + mac));
    RouteJoinNested(ip + "/32", port, mac);
    RoutePrefix(tail);
    RouteTail("table_add MyIngress.ipv4_lpm set_egress ", ip, port, mac);
  }

  /** The L2 command text carries exactly its entry. */
  lemma ParseL2CommandText(e: L2Entry)
    ensures ParseL2Command(L2CommandText(e)) == Some(e)
  {
    L2TextIsJoin(e);
    SplitWordsJoin(L2Words(e));
    ParseMacText(e.mac);
    ParseDecimalOfDecimal(e.port);
  }

  /** The route command text carries exactly its route. */
  lemma ParseRouteCommandText(r: Route)
    ensures ParseRouteCommand(RouteCommandText(r)) == Some(r)
  {
    RouteTextIsJoin(r);
    SplitWordsJoin(RouteWords(r));
    var key := IpText(r.ip) + "/32";
    assert key[|key| - 3..] == "/32" && key[..|key| - 3] == IpText(r.ip);
    ParseIpText(r.ip);
    ParseMacText(r.mac);
    ParseDecimalOfDecimal(r.port);
  }

  // ------------------------------------------------------------ installation

  /** `install_l2_rules`: one CLI call per entry, in list order, always on
      `THRIFT_BASE`. */
  function InstallL2Rules(rules: seq<L2Entry>): (calls: seq<CliCall>)
    ensures |calls| == |rules|
    ensures forall k :: 0 <= k < |rules| ==>
      calls[k].thriftPort == ThriftBase && ParseL2Command(calls[k].command) == Some(rules[k])
  {
    forall k | 0 <= k < |rules|
      ensures ParseL2Command(L2CommandText(rules[k])) == Some(rules[k])
    {
      ParseL2CommandText(rules[k]);
    }
    seq(|rules|, k requires 0 <= k < |rules| => CliCall(ThriftBase, L2CommandText(rules[k])))
  }

  /** `install_ipv4_routes`: one CLI call per route, in list order, always on
      `THRIFT_BASE`. */
  function InstallIpv4Routes(routes: seq<Route>): (calls: seq<CliCall>)
    ensures |calls| == |routes|
    ensures forall k :: 0 <= k < |routes| ==>
      calls[k].thriftPort == ThriftBase && ParseRouteCommand(calls[k].command) == Some(routes[k])
  {
    forall k | 0 <= k < |routes|
      ensures ParseRouteCommand(RouteCommandText(routes[k])) == Some(routes[k])
    {
      ParseRouteCommandText(routes[k]);
    }
    seq(|routes|, k requires 0 <= k < |routes| => CliCall(ThriftBase, RouteCommandText(routes[k])))
  }
}

=== FILE: multicast.dfy ===
/** The multicast and mirroring configurator
    (`configure_bmv2_multicast_and_mirroring`): six runtime-CLI commands that
    create a multicast group and a node, associate them, and bind a mirror
    session to the group. */
module Multicast {
  import opened Options
  import opened Text
  import opened SwitchCli

  datatype McCommand =
    | MgrpCreate(group: nat)
    | NodeCreate(node: nat, ports: seq<nat>)
    | NodeAssociate(group: nat, node: nat)
    | McDump
    | MirroringAddMc(session: nat, group: nat)
    | MirroringGet(session: nat)

  /** The node the association step names: the literal `0`, whatever node
      was created. */
  const AssociatedNode: nat := 0

  /** The configurator's fixed step order: create the group, create the
      node, associate, dump, bind the mirror session, query it. */
  predicate ConfiguratorOrder(cs: seq<McCommand>)
  {
    && |cs| == 6
    && cs[0].MgrpCreate? && cs[1].NodeCreate? && cs[2].NodeAssociate?
    && cs[3].McDump? && cs[4].MirroringAddMc? && cs[5].MirroringGet?
  }

  /** The configurator's six commands for `(mcast_grp, node_id, node_ports,
      mirror_session)`: each step in its fixed place, the group and session
      carried to every step that names them, and the node created with its
      ports in the given order. */
  function Configure(group: nat, node: nat, ports: seq<nat>, session: nat): (cs: seq<McCommand>)
    ensures ConfiguratorOrder(cs)
    ensures cs[0].group == group && cs[2].group == group && cs[4].group == group
    ensures cs[1].node == node && cs[1].ports == ports
    ensures cs[2].node == AssociatedNode
    ensures cs[4].session == session && cs[5].session == session
  {
    [ MgrpCreate(group),
      NodeCreate(node, ports),
      NodeAssociate(group, AssociatedNode),
      McDump,
      MirroringAddMc(session, group),
      MirroringGet(session) ]
  }

  // ------------------------------------------------------------ ordering

  /** Every association and every mirror binding names a group created by an
      earlier command. */
  predicate GroupsCreatedFirst(cs: seq<McCommand>)
  {
    forall j :: 0 <= j < |cs| && (cs[j].NodeAssociate? || cs[j].MirroringAddMc?) ==>
      exists i :: 0 <= i < j && cs[i] == MgrpCreate(cs[j].group)
  }

  /** Every mirror binding follows an association into its group. */
  predicate MirrorsAfterAssociation(cs: seq<McCommand>)
  {
    forall j :: 0 <= j < |cs| && cs[j].MirroringAddMc? ==>
      exists i :: 0 <= i < j && cs[i].NodeAssociate? && cs[i].group == cs[j].group
  }

  /** Every mirror query names a session bound by an earlier command. */
  predicate SessionsBoundFirst(cs: seq<McCommand>)
  {
    forall j :: 0 <= j < |cs| && cs[j].MirroringGet? ==>
      exists i :: 0 <= i < j && cs[i].MirroringAddMc? && cs[i].session == cs[j].session
  }

  /** Every association names a node created by an earlier command. */
  predicate AssociatesCreatedNodes(cs: seq<McCommand>)
  {
    forall j :: 0 <= j < |cs| && cs[j].NodeAssociate? ==>
      exists i :: 0 <= i < j && cs[i].NodeCreate? && cs[i].node == cs[j].node
  }

  /** The configurator creates the group before associating into it,
      associates before mirroring, and binds the session it later queries. */
  lemma ConfigureWellOrdered(group: nat, node: nat, ports: seq<nat>, session: nat)
    ensures var cs := Configure(group, node, ports, session);
      && ConfiguratorOrder(cs)
      && GroupsCreatedFirst(cs) && MirrorsAfterAssociation(cs) && SessionsBoundFirst(cs)
  {
    var cs := Configure(group, node, ports, session);
    assert cs[0] == MgrpCreate(cs[2].group) && cs[0] == MgrpCreate(cs[4].group);
    assert cs[2].NodeAssociate? && cs[2].group == cs[4].group;
    assert cs[4].MirroringAddMc? && cs[4].session == cs[5].session;
  }

  /** The association names the node just created exactly when that node is
      node 0; for any other `node_id` it names a node nothing created. */
  lemma ConfigureAssociatesCreatedNode(group: nat, node: nat, ports: seq<nat>, session: nat)
    ensures AssociatesCreatedNodes(Configure(group, node, ports, session)) <==> node == AssociatedNode
  {
    var cs := Configure(group, node, ports, session);
    if node == AssociatedNode {
      assert cs[1].NodeCreate? && cs[1].node == cs[2].node;
    } else {
      assert cs[2].NodeAssociate?;
      assert forall i :: 0 <= i < 2 ==> !(cs[i].NodeCreate? && cs[i].node == cs[2].node);
    }
  }

  /** The group is created, the node is created with its ports, the mirror
      session is bound to the created group and then queried; no other
      binding or query is issued. */
  lemma ConfigureMirrorsItsGroup(group: nat, node: nat, ports: seq<nat>, session: nat)
    ensures MgrpCreate(group) in Configure(group, node, ports, session)
    ensures NodeCreate(node, ports) in Configure(group, node, ports, session)
    ensures MirroringAddMc(session, group) in Configure(group, node, ports, session)
    ensures MirroringGet(session) in Configure(group, node, ports, session)
    ensures forall c :: c in Configure(group, node, ports, session) && c.MirroringAddMc? ==>
      c == MirroringAddMc(session, group)
    ensures forall c :: c in Configure(group, node, ports, session) && c.MirroringGet? ==>
      c == MirroringGet(session)
  {
  }

  /** The CLOS call site (group 100, node 1, ports 1..5, session 1). */
  const ClosMulticast: seq<McCommand> := Configure(100, 1, [1, 2, 3, 4, 5], 1)

  /** The single-switch call site (group 1, node 1, ports 3..5, session 1). */
  const SingleSwitchMulticast: seq<McCommand> := Configure(1, 1, [3, 4, 5], 1)

  /** Both call sites create node 1 and associate node 0. */
  lemma CallSitesAssociateUncreatedNode()
    ensures !AssociatesCreatedNodes(ClosMulticast)
    ensures !AssociatesCreatedNodes(SingleSwitchMulticast)
    ensures !AssociatesCreatedNodes(Configure(1, 10, [3, 4, 5], 1))
  {
    ConfigureAssociatesCreatedNode(100, 1, [1, 2, 3, 4, 5], 1);
    ConfigureAssociatesCreatedNode(1, 1, [3, 4, 5], 1);
    ConfigureAssociatesCreatedNode(1, 10, [3, 4, 5], 1);
  }

  // ------------------------------------------------------------ command text

  /** The runtime-CLI text of a command; a node's ports follow its id,
      space-separated, in the given order. */
  function McText(c: McCommand): string
  {
    match c
    case MgrpCreate(g) => "mc_mgrp_create " + Decimal(g)
    case NodeCreate(n, ps) => "mc_node_create " + Decimal(n) + " " + Join(DecimalAll(ps), ' ')
    case NodeAssociate(g, n) => "mc_node_associate " + Decimal(g) + " " + Decimal(n)
    case McDump => "mc_dump"
    case MirroringAddMc(s, g) => "mirroring_add_mc " + Decimal(s) + " " + Decimal(g)
    case MirroringGet(s) => "mirroring_get " + Decimal(s)
  }

  /** Decimal numbers, one per word. */
  function ParseDecimals(ws: seq<string>): (r: Option<seq<nat>>)
    ensures r.Some? ==> |r.value| == |ws|
  {
    if ws == [] then Some([])
    else
      match (ParseDecimal(ws[0]), ParseDecimals(ws[1..]))
      case (Some(n), Some(ns)) => Some([n] + ns)
      case _ => None
  }

  lemma {:induction false} ParseDecimalsAll(ns: seq<nat>)
    ensures ParseDecimals(DecimalAll(ns)) == Some(ns)
  {
    if ns != [] {
      assert DecimalAll(ns)[1..] == DecimalAll(ns[1..]);
      ParseDecimalOfDecimal(ns[0]);
      ParseDecimalsAll(ns[1..]);
      assert [ns[0]] + ns[1..] == ns;
    }
  }

  /** A reference reading of a command's text: split on whitespace, then
      read the words. */
  function ParseMcCommand(s: string): Option<McCommand>
  {
    ParseMcWords(SplitWords(s))
  }

  /** The command named by the first word, with its decimal arguments. */
  function ParseMcWords(ws: seq<string>): Option<McCommand>
  {
    if |ws| == 0 then None
    else if ws[0] == "mc_mgrp_create" && |ws| == 2 then
      match ParseDecimal(ws[1])
      case Some(g) => Some(MgrpCreate(g))
      case None => None
    else if ws[0] == "mc_node_create" && |ws| >= 2 then
      match (ParseDecimal(ws[1]), ParseDecimals(ws[2..]))
      case (Some(n), Some(ps)) => Some(NodeCreate(n, ps))
      case _ => None
    else if ws[0] == "mc_node_associate" && |ws| == 3 then
      match (ParseDecimal(ws[1]), ParseDecimal(ws[2]))
      case (Some(g), Some(n)) => Some(NodeAssociate(g, n))
      case _ => None
    else if ws[0] == "mc_dump" && |ws| == 1 then Some(McDump)
    else if ws[0] == "mirroring_add_mc" && |ws| == 3 then
      match (ParseDecimal(ws[1]), ParseDecimal(ws[2]))
      case (Some(s), Some(g)) => Some(MirroringAddMc(s, g))
      case _ => None
    else if ws[0] == "mirroring_get" && |ws| == 2 then
      match ParseDecimal(ws[1])
      case Some(s) => Some(MirroringGet(s))
      case None => None
    else None
  }

  /** `mc_node_create {d} {t}` is the two leading words joined, a space, then `t`. */
  lemma NodeCreateHead(d: string, t: string)
    ensures "mc_node_create " + d + " " + t == Join(["mc_node_create", d], ' ') + " " + t
  {
    JoinCons("mc_node_create", [d], ' ');
    assert ["mc_node_create"] + [d] == ["mc_node_create", d];
    assert Join([d], ' ') == d;
    assert "mc_node_create " == "mc_node_create" + " ";
  }

  /** The words of `mc_node_create`: the command, the node id, then the
      ports in order; an empty port list leaves only a trailing space. */
  lemma NodeCreateWords(n: nat, ps: seq<nat>)
    ensures SplitWords(McText(NodeCreate(n, ps))) == ["mc_node_create", Decimal(n)] + DecimalAll(ps)
  {
    var d := Decimal(n);
    DecimalIsWord(n);
    var t := Join(DecimalAll(ps), ' ');
    NodeCreateHead(d, t);
    SplitWordsJoinThen(["mc_node_create", d], t);
    DecimalAllAreWords(ps);
    if ps == [] {
      assert SplitWords(t) == [];
    } else {
      SplitWordsJoin(DecimalAll(ps));
    }
  }

  /** The configurator's node-creation command carries the node id and then
      the ports, one word each, in the given order. */
  lemma ConfigureNodeCreateWords(group: nat, node: nat, ports: seq<nat>, session: nat)
    ensures SplitWords(McText(Configure(group, node, ports, session)[1]))
         == ["mc_node_create", Decimal(node)] + DecimalAll(ports)
  {
    NodeCreateWords(node, ports);
  }

  /** A command word followed by one number reads back as that number. */
  lemma ParseOneNumber(word: string, a: nat)
    requires IsWord(word)
    ensures SplitWords(word + " " + Decimal(a)) == [word, Decimal(a)]
    ensures ParseDecimal(SplitWords(word + " " + Decimal(a))[1]) == Some(a)
  {
    DecimalIsWord(a);
    ParseDecimalOfDecimal(a);
    SplitTwo(word, Decimal(a));
  }

  /** A command word followed by two numbers reads back as those numbers. */
  lemma ParseTwoNumbers(word: string, a: nat, b: nat)
    requires IsWord(word)
    ensures SplitWords(word + " " + Decimal(a) + " " + Decimal(b)) == [word, Decimal(a), Decimal(b)]
    ensures ParseDecimal(Decimal(a)) == Some(a) && ParseDecimal(Decimal(b)) == Some(b)
  {
    DecimalIsWord(a);
    DecimalIsWord(b);
    ParseDecimalOfDecimal(a);
    ParseDecimalOfDecimal(b);
    SplitThree(word, Decimal(a), Decimal(b));
  }

  lemma ParseNodeCreateText(n: nat, ps: seq<nat>)
    ensures ParseMcCommand(McText(NodeCreate(n, ps))) == Some(NodeCreate(n, ps))
  {
    NodeCreateWords(n, ps);
    ParseDecimalOfDecimal(n);
    var ws := ["mc_node_create", Decimal(n)] + DecimalAll(ps);
    assert ws[2..] == DecimalAll(ps);
    ParseDecimalsAll(ps);
  }

  lemma ParseMgrpCreateText(g: nat)
    ensures ParseMcCommand(McText(MgrpCreate(g))) == Some(MgrpCreate(g))
  {
    assert McText(MgrpCreate(g)) == "mc_mgrp_create" + " " + Decimal(g);
    ParseOneNumber("mc_mgrp_create", g);
    ParseDecimalOfDecimal(g);
    MgrpCreateWords(Decimal(g), g);
  }

  lemma MgrpCreateWords(a: string, g: nat)
    requires ParseDecimal(a) == Some(g)
    ensures ParseMcWords(["mc_mgrp_create", a]) == Some(MgrpCreate(g))
  {
  }

  lemma ParseNodeAssociateText(g: nat, n: nat)
    ensures ParseMcCommand(McText(NodeAssociate(g, n))) == Some(NodeAssociate(g, n))
  {
    assert McText(NodeAssociate(g, n)) == "mc_node_associate" + " " + Decimal(g) + " " + Decimal(n);
    ParseTwoNumbers("mc_node_associate", g, n);
    NodeAssociateWords(Decimal(g), Decimal(n), g, n);
  }

  lemma NodeAssociateWords(a: string, b: string, g: nat, n: nat)
    requires ParseDecimal(a) == Some(g) && ParseDecimal(b) == Some(n)
    ensures ParseMcWords(["mc_node_associate", a, b]) == Some(NodeAssociate(g, n))
  {
    assert "mc_node_associate"[3] != "mc_mgrp_create"[3];
    assert "mc_node_associate"[8] != "mc_node_create"[8];
  }

  lemma ParseMcDumpText()
    ensures ParseMcCommand(McText(McDump)) == Some(McDump)
  {
    SplitWordsOne("mc_dump");
    McDumpWords();
  }

  lemma McDumpWords()
    ensures ParseMcWords(["mc_dump"]) == Some(McDump)
  {
    assert "mc_dump"[3] != "mc_mgrp_create"[3];
    assert "mc_dump"[3] != "mc_node_create"[3];
  }

  lemma ParseMirroringAddMcText(s: nat, g: nat)
    ensures ParseMcCommand(McText(MirroringAddMc(s, g))) == Some(MirroringAddMc(s, g))
  {
    assert McText(MirroringAddMc(s, g)) == "mirroring_add_mc" + " " + Decimal(s) + " " + Decimal(g);
    ParseTwoNumbers("mirroring_add_mc", s, g);
    MirroringAddMcWords(Decimal(s), Decimal(g), s, g);
  }

  lemma MirroringAddMcWords(a: string, b: string, s: nat, g: nat)
    requires ParseDecimal(a) == Some(s) && ParseDecimal(b) == Some(g)
    ensures ParseMcWords(["mirroring_add_mc", a, b]) == Some(MirroringAddMc(s, g))
  {
    assert "mirroring_add_mc"[1] != "mc_node_create"[1];
    assert "mirroring_add_mc"[1] != "mc_node_associate"[1];
    assert "mirroring_add_mc"[1] != "mc_mgrp_create"[1];
    assert "mirroring_add_mc"[1] != "mc_dump"[1];
  }

  lemma ParseMirroringGetText(s: nat)
    ensures ParseMcCommand(McText(MirroringGet(s))) == Some(MirroringGet(s))
  {
    assert McText(MirroringGet(s)) == "mirroring_get" + " " + Decimal(s);
    ParseOneNumber("mirroring_get", s);
    ParseDecimalOfDecimal(s);
    MirroringGetWords(Decimal(s), s);
  }

  lemma MirroringGetWords(a: string, s: nat)
    requires ParseDecimal(a) == Some(s)
    ensures ParseMcWords(["mirroring_get", a]) == Some(MirroringGet(s))
  {
    assert "mirroring_get"[1] != "mc_mgrp_create"[1];
    assert "mirroring_get"[1] != "mc_node_create"[1];
    assert "mirroring_get"[10] != "mirroring_add_mc"[10];
  }

  /** Each command's text reads back as that command. */
  lemma ParseMcText(c: McCommand)
    ensures ParseMcCommand(McText(c)) == Some(c)
  {
    match c
    case MgrpCreate(g) => ParseMgrpCreateText(g);
    case NodeCreate(n, ps) => ParseNodeCreateText(n, ps);
    case NodeAssociate(g, n) => ParseNodeAssociateText(g, n);
    case McDump => ParseMcDumpText();
    case MirroringAddMc(s, g) => ParseMirroringAddMcText(s, g);
    case MirroringGet(s) => ParseMirroringGetText(s);
  }

  /** `bmv2_cli`: each command in order, on the fixed control port. */
  function McCalls(cs: seq<McCommand>): (calls: seq<CliCall>)
    ensures |calls| == |cs|
    ensures forall k :: 0 <= k < |cs| ==>
      calls[k].thriftPort == ThriftBase && ParseMcCommand(calls[k].command) == Some(cs[k])
  {
    forall k | 0 <= k < |cs|
      ensures ParseMcCommand(McText(cs[k])) == Some(cs[k])
    {
      ParseMcText(cs[k]);
    }
    seq(|cs|, k requires 0 <= k < |cs| => CliCall(ThriftBase, McText(cs[k])))
  }
}

=== FILE: options.dfy ===
/** The optional value used for every partial operation of the model:
    a frame too short to unpack, a dictionary lookup of an unknown key,
    text that does not parse. */
module Options {

  datatype Option<+T> = None | Some(value: T)

}

=== FILE: struct_format.dfy ===
/** Python's `struct` module restricted to what the CFH scripts use: a format
    with the `!` prefix (network byte order, standard sizes, no padding or
    alignment) followed by the unsigned codes `B`, `I` and `Q`. */
module StructFormat {
  import opened Options
  import opened BigEndian

  /** `B` unsigned char, `I` unsigned int, `Q` unsigned long long. */
  datatype Code = B | I | Q

  /** The standard size of a code; under `!` no native size applies. */
  function Size(c: Code): nat
  {
    match c
    case B => 1
    case I => 4
    case Q => 8
  }

  /** `struct.calcsize`: with `!` there is no padding, so the size is the
      plain sum of the field sizes. */
  function CalcSize(fmt: seq<Code>): nat
  {
    if fmt == [] then 0 else Size(fmt[0]) + CalcSize(fmt[1..])
  }

  /** Byte offset of field `k`: the size of the fields before it. */
  function Offset(fmt: seq<Code>, k: nat): nat
    requires k <= |fmt|
  {
    CalcSize(fmt[..k])
  }

  /** The size of a format grows by each code appended. */
  lemma {:induction false} CalcSizeAppend(fmt: seq<Code>, c: Code)
    ensures CalcSize(fmt + [c]) == CalcSize(fmt) + Size(c)
  {
    if fmt != [] {
      assert (fmt + [c])[1..] == fmt[1..] + [c];
      CalcSizeAppend(fmt[1..], c);
    }
  }

  /** Each field starts where the previous one ends. */
  lemma OffsetStep(fmt: seq<Code>, k: nat)
    requires k < |fmt|
    ensures Offset(fmt, k + 1) == Offset(fmt, k) + Size(fmt[k])
  {
    assert fmt[..k + 1] == fmt[..k] + [fmt[k]];
    CalcSizeAppend(fmt[..k], fmt[k]);
  }

  /** Values `struct.pack` accepts for `fmt` without raising `struct.error`:
      one per code, each within the code's unsigned range. */
  predicate Fits(fmt: seq<Code>, vs: seq<nat>)
  {
    |vs| == |fmt| && forall k :: 0 <= k < |fmt| ==> FitsWidth(vs[k], Size(fmt[k]))
  }

  /** `struct.pack(fmt, *vs)`: the fields' big-endian bytes back to back. */
  function Pack(fmt: seq<Code>, vs: seq<nat>): (r: seq<byte>)
    requires Fits(fmt, vs)
    ensures |r| == CalcSize(fmt)
  {
    if fmt == [] then []
    else ToBytes(vs[0], Size(fmt[0])) + Pack(fmt[1..], vs[1..])
  }

  /** The field values of a buffer of exactly `CalcSize(fmt)` bytes. */
  function UnpackExact(fmt: seq<Code>, s: seq<byte>): (r: seq<nat>)
    requires |s| == CalcSize(fmt)
    ensures Fits(fmt, r)
  {
    if fmt == [] then []
    else [FromBytes(s[..Size(fmt[0])])] + UnpackExact(fmt[1..], s[Size(fmt[0])..])
  }

  /** `struct.unpack(fmt, s)`: raises (here `None`) unless the buffer has
      exactly `calcsize(fmt)` bytes. */
  function Unpack(fmt: seq<Code>, s: seq<byte>): (r: Option<seq<nat>>)
    ensures r.Some? <==> |s| == CalcSize(fmt)
    ensures r.Some? ==> Fits(fmt, r.value) && Pack(fmt, r.value) == s
  {
    if |s| != CalcSize(fmt) then None
    else
      PackUnpack(fmt, s);
      Some(UnpackExact(fmt, s))
  }

  /** Unpacking what was packed returns the packed values. */
  lemma {:induction false} UnpackPack(fmt: seq<Code>, vs: seq<nat>)
    requires Fits(fmt, vs)
    ensures UnpackExact(fmt, Pack(fmt, vs)) == vs
  {
    if fmt != [] {
      var s := Pack(fmt, vs);
      var w := Size(fmt[0]);
      assert s[..w] == ToBytes(vs[0], w);
      assert s[w..] == Pack(fmt[1..], vs[1..]);
      FromToBytes(vs[0], w);
      FitsTail(fmt, vs);
      UnpackPack(fmt[1..], vs[1..]);
    }
  }

  /** Packing what was unpacked reproduces the buffer. */
  lemma {:induction false} PackUnpack(fmt: seq<Code>, s: seq<byte>)
    requires |s| == CalcSize(fmt)
    ensures Pack(fmt, UnpackExact(fmt, s)) == s
  {
    if fmt != [] {
      var w := Size(fmt[0]);
      ToFromBytes(s[..w]);
      PackUnpack(fmt[1..], s[w..]);
      assert s == s[..w] + s[w..];
    }
  }

  /** Packing a suffix of the fields peels off its first field. */
  lemma PackTail(fmt: seq<Code>, vs: seq<nat>, k: nat)
    requires Fits(fmt, vs) && k < |fmt|
    ensures Fits(fmt[k..], vs[k..])
    ensures Pack(fmt[k..], vs[k..])
            == ToBytes(vs[k], Size(fmt[k])) + Pack(fmt[k + 1..], vs[k + 1..])
  {
    assert fmt[k..][1..] == fmt[k + 1..] && vs[k..][1..] == vs[k + 1..];
    assert Fits(fmt[k..], vs[k..]) by {
      forall j | 0 <= j < |fmt[k..]|
        ensures FitsWidth(vs[k..][j], Size(fmt[k..][j]))
      {
        assert vs[k..][j] == vs[k + j] && fmt[k..][j] == fmt[k + j];
      }
    }
  }

  /** Field `k` of a packed buffer sits at `Offset(fmt, k)` and holds the
      big-endian bytes of the `k`-th value. */
  lemma {:induction false} PackField(fmt: seq<Code>, vs: seq<nat>, k: nat)
    requires Fits(fmt, vs) && k < |fmt|
    ensures Offset(fmt, k) + Size(fmt[k]) <= CalcSize(fmt)
    ensures Pack(fmt, vs)[Offset(fmt, k)..Offset(fmt, k) + Size(fmt[k])]
            == ToBytes(vs[k], Size(fmt[k]))
  {
    var w := Size(fmt[0]);
    if k == 0 {
      assert fmt[..0] == [];
    } else {
      var o := Offset(fmt[1..], k - 1);
      assert fmt[..k] == [fmt[0]] + fmt[1..][..k - 1];
      assert Offset(fmt, k) == w + o;
      FitsTail(fmt, vs);
      PackField(fmt[1..], vs[1..], k - 1);
      SliceAfter(ToBytes(vs[0], w), Pack(fmt[1..], vs[1..]), o, o + Size(fmt[k]));
    }
  }

  /** Dropping the first code and value keeps the values in range. */
  lemma FitsTail(fmt: seq<Code>, vs: seq<nat>)
    requires Fits(fmt, vs) && fmt != []
    ensures Fits(fmt[1..], vs[1..])
  {
    forall j | 0 <= j < |fmt[1..]|
      ensures FitsWidth(vs[1..][j], Size(fmt[1..][j]))
    {
      assert vs[1..][j] == vs[j + 1] && fmt[1..][j] == fmt[j + 1];
    }
  }

  /** A slice past the first part of a concatenation is a slice of the
      second part. */
  lemma SliceAfter(a: seq<byte>, b: seq<byte>, i: nat, j: nat)
    requires i <= j <= |b|
    ensures (a + b)[|a| + i..|a| + j] == b[i..j]
  {
  }

  /** Value `k` of an unpacked buffer is the big-endian reading of the
      `Size(fmt[k])` bytes at `Offset(fmt, k)`. */
  lemma UnpackField(fmt: seq<Code>, s: seq<byte>, k: nat)
    requires |s| == CalcSize(fmt) && k < |fmt|
    ensures Offset(fmt, k) + Size(fmt[k]) <= |s|
    ensures UnpackExact(fmt, s)[k]
            == FromBytes(s[Offset(fmt, k)..Offset(fmt, k) + Size(fmt[k])])
  {
    var vs := UnpackExact(fmt, s);
    PackUnpack(fmt, s);
    PackField(fmt, vs, k);
    FromToBytes(vs[k], Size(fmt[k]));
  }
}

=== FILE: switch_cli.dfy ===
/** The switch control surface as the scripts use it: each command is piped
    to one run of `simple_switch_CLI --thrift-port {port}`; its output is only
    printed, so a call is fully described by its port and its command text. */
module SwitchCli {
  /** `THRIFT_BASE` (CLOS) and `THRIFT_PORT` (single switch): 9090. */
  const ThriftBase: nat := 9090

  /** One `simple_switch_CLI --thrift-port {thriftPort}` run fed `command`. */
  datatype CliCall = CliCall(thriftPort: nat, command: string)
}

=== FILE: text.dfy ===
/** The text primitives the scripts rely on: decimal `str(n)`, two-digit
    lowercase hex `{:02x}`, `" ".join`, `str.split()` on whitespace and
    `str.split(c)` on one character, each with its inverse. */
module Text {
  import opened Options
  import opened BigEndian

  // ---------------------------------------------------------------- decimal

  predicate IsDigit(c: char)
  {
    '0' <= c <= '9'
  }

  predicate AllDigits(s: string)
  {
    forall k :: 0 <= k < |s| ==> IsDigit(s[k])
  }

  function DigitChar(d: nat): (c: char)
    requires d < 10
    ensures IsDigit(c)
  {
    (48 + d) as char
  }

  function DigitValue(c: char): (d: nat)
    requires IsDigit(c)
    ensures d < 10 && DigitChar(d) == c
  {
    c as int - 48
  }

  /** `str(n)` for a non-negative integer: no sign, no leading zeros. */
  function Decimal(n: nat): (s: string)
    ensures |s| >= 1 && AllDigits(s)
    ensures n >= 10 ==> s[0] != '0'
    decreases n
  {
    if n < 10 then [DigitChar(n)] else Decimal(n / 10) + [DigitChar(n % 10)]
  }

  /** The value of a string of decimal digits. */
  function DigitsValue(s: string): nat
    requires AllDigits(s)
  {
    if s == [] then 0 else DigitsValue(s[..|s| - 1]) * 10 + DigitValue(s[|s| - 1])
  }

  /** Reads a non-empty run of decimal digits. */
  function ParseDecimal(s: string): (r: Option<nat>)
    ensures r.Some? <==> s != [] && AllDigits(s)
  {
    if s != [] && AllDigits(s) then Some(DigitsValue(s)) else None
  }

  lemma {:induction false} DigitsValueOfDecimal(n: nat)
    ensures DigitsValue(Decimal(n)) == n
    decreases n
  {
    if n >= 10 {
      var s := Decimal(n);
      assert s[..|s| - 1] == Decimal(n / 10);
      DigitsValueOfDecimal(n / 10);
    }
  }

  /** Decimal text reads back as the number it was written from. */
  lemma ParseDecimalOfDecimal(n: nat)
    ensures ParseDecimal(Decimal(n)) == Some(n)
  {
    DigitsValueOfDecimal(n);
  }

  /** Distinct numbers render as distinct text. */
  lemma DecimalInjective(n: nat, m: nat)
    requires Decimal(n) == Decimal(m)
    ensures n == m
  {
    ParseDecimalOfDecimal(n);
    ParseDecimalOfDecimal(m);
  }

  // -------------------------------------------------------------------- hex

  predicate IsHexDigit(c: char)
  {
    IsDigit(c) || 'a' <= c <= 'f'
  }

  /** A lowercase hexadecimal digit. */
  function HexChar(d: nat): (c: char)
    requires d < 16
    ensures IsHexDigit(c)
  {
    if d < 10 then DigitChar(d) else (87 + d) as char
  }

  function HexValue(c: char): (d: nat)
    requires IsHexDigit(c)
    ensures d < 16 && HexChar(d) == c
  {
    if IsDigit(c) then DigitValue(c) else c as int - 87
  }

  /** `"{:02x}".format(b)`: exactly two lowercase hex digits. */
  function Hex2(b: byte): (s: string)
    ensures |s| == 2 && IsHexDigit(s[0]) && IsHexDigit(s[1])
  {
    [HexChar(b / 16), HexChar(b % 16)]
  }

  /** Reads exactly two hex digits as one byte. */
  function ParseHex2(s: string): (r: Option<byte>)
    ensures r.Some? <==> |s| == 2 && IsHexDigit(s[0]) && IsHexDigit(s[1])
  {
    if |s| == 2 && IsHexDigit(s[0]) && IsHexDigit(s[1])
    then Some(HexValue(s[0]) * 16 + HexValue(s[1]))
    else None
  }

  lemma HexCharInjective(d: nat, e: nat)
    requires d < 16 && e < 16 && HexChar(d) == HexChar(e)
    ensures d == e
  {
    assert HexValue(HexChar(d)) == d by { HexCharValue(d); }
    assert HexValue(HexChar(e)) == e by { HexCharValue(e); }
  }

  lemma HexCharValue(d: nat)
    requires d < 16
    ensures HexValue(HexChar(d)) == d
  {
    if d < 10 {
      assert HexChar(d) == (48 + d) as char;
    } else {
      assert HexChar(d) == (87 + d) as char;
    }
  }

  /** Two-digit hex text reads back as its byte. */
  lemma ParseHex2OfHex2(b: byte)
    ensures ParseHex2(Hex2(b)) == Some(b)
  {
    HexCharValue(b / 16);
    HexCharValue(b % 16);
  }

  // ------------------------------------------------------------------- join

  /** `sep.join(ws)` for a one-character separator. */
  function Join(ws: seq<string>, sep: char): string
  {
    if |ws| == 0 then []
    else if |ws| == 1 then ws[0]
    else ws[0] + [sep] + Join(ws[1..], sep)
  }

  /** Joining one more word in front adds it and one separator. */
  lemma JoinCons(w: string, ws: seq<string>, sep: char)
    requires ws != []
    ensures Join([w] + ws, sep) == w + [sep] + Join(ws, sep)
  {
    assert ([w] + ws)[1..] == ws;
  }

  /** Every element of `ss` rendered in decimal. */
  function DecimalAll(ns: seq<nat>): (ss: seq<string>)
    ensures |ss| == |ns|
    ensures forall k :: 0 <= k < |ns| ==> ss[k] == Decimal(ns[k])
  {
    seq(|ns|, k requires 0 <= k < |ns| => Decimal(ns[k]))
  }

  // --------------------------------------------------------- split on spaces

  /** Python's `str.isspace()` for one character. */
  predicate IsSpace(c: char)
  {
    || c == ' '
    || '\U{0009}' <= c <= '\U{000D}'
    || '\U{001C}' <= c <= '\U{001F}'
    || c == '\U{0085}' || c == '\U{00A0}' || c == '\U{1680}'
    || '\U{2000}' <= c <= '\U{200A}'
    || c == '\U{2028}' || c == '\U{2029}' || c == '\U{202F}'
    || c == '\U{205F}' || c == '\U{3000}'
  }

  predicate NoSpace(w: string)
  {
    forall k :: 0 <= k < |w| ==> !IsSpace(w[k])
  }

  /** A token `str.split()` can return: non-empty, without whitespace. */
  predicate IsWord(w: string)
  {
    w != [] && NoSpace(w)
  }

  /** Length of the leading run of non-whitespace characters. */
  function WordLen(s: string): (n: nat)
    ensures n <= |s| && NoSpace(s[..n])
    ensures n < |s| ==> IsSpace(s[n])
    ensures s != [] && !IsSpace(s[0]) ==> n >= 1
  {
    if s == [] || IsSpace(s[0]) then 0 else 1 + WordLen(s[1..])
  }

  /** Python's `str.split()` with no argument: runs of whitespace separate
      tokens, leading and trailing whitespace yields no empty token. */
  function SplitWords(s: string): (ws: seq<string>)
    ensures forall k :: 0 <= k < |ws| ==> IsWord(ws[k])
    decreases |s|
  {
    if s == [] then []
    else if IsSpace(s[0]) then SplitWords(s[1..])
    else
      var n := WordLen(s);
      [s[..n]] + SplitWords(s[n..])
  }

  lemma {:induction false} WordLenOfWord(w: string, t: string)
    requires NoSpace(w)
    requires t == [] || IsSpace(t[0])
    ensures WordLen(w + t) == |w|
  {
    if w != [] {
      assert (w + t)[1..] == w[1..] + t;
      WordLenOfWord(w[1..], t);
    }
  }

  /** A word followed by whitespace or the end is split off whole. */
  lemma SplitWordsCons(w: string, t: string)
    requires IsWord(w)
    requires t == [] || IsSpace(t[0])
    ensures SplitWords(w + t) == [w] + SplitWords(t)
  {
    WordLenOfWord(w, t);
    assert (w + t)[..|w|] == w;
    assert (w + t)[|w|..] == t;
  }

  /** The parts of a three-part concatenation, recovered by slicing. */
  lemma Middle(p: string, m: string, q: string)
    ensures (p + m + q)[..|p|] == p
    ensures (p + m + q)[|p + m + q| - |q|..] == q
    ensures (p + m + q)[|p|..|p + m + q| - |q|] == m
  {
  }

  /** Four leading words, each followed by a space, split off ahead of `t`'s words. */
  lemma SplitWordsFourThen(a: string, b: string, c: string, d: string, t: string)
    requires IsWord(a) && IsWord(b) && IsWord(c) && IsWord(d)
    ensures SplitWords(a + (" " + (b + (" " + (c + (" " + (d + (" " + t))))))))
         == [a, b, c, d] + SplitWords(t)
  {
    SplitWordsWordThen(d, t);
    SplitWordsWordThen(c, d + (" " + t));
    SplitWordsWordThen(b, c + (" " + (d + (" " + t))));
    SplitWordsWordThen(a, b + (" " + (c + (" " + (d + (" " + t))))));
  }

  /** A lone word splits into itself. */
  lemma SplitWordsOne(w: string)
    requires IsWord(w)
    ensures SplitWords(w) == [w]
  {
    SplitWordsCons(w, []);
    assert w + [] == w;
  }

  /** Leading whitespace is skipped. */
  lemma SplitWordsSpace(t: string)
    ensures SplitWords(" " + t) == SplitWords(t)
  {
    assert (" " + t)[1..] == t;
  }

  /** `" ".join(ws).split() == ws` for proper tokens. */
  lemma {:induction false} SplitWordsJoin(ws: seq<string>)
    requires forall k :: 0 <= k < |ws| ==> IsWord(ws[k])
    ensures SplitWords(Join(ws, ' ')) == ws
  {
    if |ws| == 1 {
      SplitWordsCons(ws[0], []);
      assert ws[0] + [] == ws[0];
    } else if |ws| > 1 {
      var rest := Join(ws[1..], ' ');
      assert Join(ws, ' ') == ws[0] + (" " + rest);
      SplitWordsCons(ws[0], " " + rest);
      SplitWordsSpace(rest);
      SplitWordsJoin(ws[1..]);
    }
  }

  /** `(a + " " + b).split() == a.split() + b.split()` when `a` is a joined
      token list. */
  lemma {:induction false} SplitWordsJoinThen(ws: seq<string>, t: string)
    requires forall k :: 0 <= k < |ws| ==> IsWord(ws[k])
    requires ws != []
    ensures SplitWords(Join(ws, ' ') + " " + t) == ws + SplitWords(t)
  {
    if |ws| == 1 {
      SplitWordsJoinThenOne(ws, t);
    } else {
      var rest := ws[1..];
      assert forall k :: 0 <= k < |rest| ==> IsWord(rest[k]) by {
        forall k | 0 <= k < |rest| ensures IsWord(rest[k]) {
          assert rest[k] == ws[k + 1];
        }
      }
      SplitWordsJoinThen(rest, t);
      SplitWordsJoinThenStep(ws, t);
    }
  }

  lemma SplitWordsJoinThenStep(ws: seq<string>, t: string)
    requires |ws| > 1 && IsWord(ws[0])
    requires SplitWords(Join(ws[1..], ' ') + " " + t) == ws[1..] + SplitWords(t)
    ensures SplitWords(Join(ws, ' ') + " " + t) == ws + SplitWords(t)
  {
    var tail := Join(ws[1..], ' ') + " " + t;
    JoinThenRegroup(ws, t);
    SplitWordsWordThen(ws[0], tail);
    ConsRegroup(ws, SplitWords(t));
  }

  lemma ConsRegroup<T>(xs: seq<T>, ys: seq<T>)
    requires xs != []
    ensures [xs[0]] + (xs[1..] + ys) == xs + ys
  {
    assert [xs[0]] + xs[1..] == xs;
  }

  lemma SplitWordsJoinThenOne(ws: seq<string>, t: string)
    requires |ws| == 1 && IsWord(ws[0])
    ensures SplitWords(Join(ws, ' ') + " " + t) == ws + SplitWords(t)
  {
    assert Join(ws, ' ') + " " + t == ws[0] + (" " + t);
    SplitWordsWordThen(ws[0], t);
    assert [ws[0]] == ws;
  }

  /** A word, a space, then `t`: the word and then `t`'s words. */
  lemma SplitWordsWordThen(w: string, t: string)
    requires IsWord(w)
    ensures SplitWords(w + (" " + t)) == [w] + SplitWords(t)
  {
    SplitWordsCons(w, " " + t);
    SplitWordsSpace(t);
  }

  /** A joined list of two or more words, a space and `t`, regrouped
      around the first word. */
  lemma JoinThenRegroup(ws: seq<string>, t: string)
    requires |ws| > 1
    ensures Join(ws, ' ') + " " + t == ws[0] + (" " + (Join(ws[1..], ' ') + " " + t))
  {
    var rest := Join(ws[1..], ' ');
    assert Join(ws, ' ') == ws[0] + [' '] + rest;
    RegroupFive(ws[0], [' '], rest, " ", t);
  }

  lemma RegroupFive(a: string, b: string, c: string, d: string, e: string)
    ensures a + b + c + d + e == a + (b + (c + d + e))
  {
  }

  /** `(a + " " + b).split() == [a, b]` for two words. */
  lemma SplitTwo(a: string, b: string)
    requires IsWord(a) && IsWord(b)
    ensures SplitWords(a + " " + b) == [a, b]
  {
    SplitWordsJoinThen([a], b);
    SplitWordsCons(b, []);
    assert b + [] == b;
  }

  /** `(a + " " + b + " " + c).split() == [a, b, c]` for three words. */
  lemma SplitThree(a: string, b: string, c: string)
    requires IsWord(a) && IsWord(b) && IsWord(c)
    ensures SplitWords(a + " " + b + " " + c) == [a, b, c]
  {
    JoinCons(a, [b], ' ');
    assert [a] + [b] == [a, b];
    SplitWordsJoinThen([a, b], c);
    SplitWordsCons(c, []);
    assert c + [] == c;
  }

  lemma DecimalIsWord(n: nat)
    ensures IsWord(Decimal(n))
  {
    var s := Decimal(n);
    assert forall k :: 0 <= k < |s| ==> IsDigit(s[k]);
  }

  lemma DecimalAllAreWords(ns: seq<nat>)
    ensures forall k :: 0 <= k < |ns| ==> IsWord(DecimalAll(ns)[k])
  {
    forall k | 0 <= k < |ns|
      ensures IsWord(DecimalAll(ns)[k])
    {
      DecimalIsWord(ns[k]);
    }
  }

  // ---------------------------------------------------- split on one char

  /** Python's `s.split(c)`: always at least one piece, empty pieces kept. */
  function SplitChar(s: string, c: char): (ps: seq<string>)
    ensures |ps| >= 1
  {
    if s == [] then [[]]
    else
      var rest := SplitChar(s[1..], c);
      if s[0] == c then [[]] + rest else [[s[0]] + rest[0]] + rest[1..]
  }

  lemma {:induction false} SplitCharPrefix(w: string, t: string, c: char)
    requires c !in w
    ensures SplitChar(w + t, c)
            == [w + SplitChar(t, c)[0]] + SplitChar(t, c)[1..]
  {
    if w == [] {
      var r := SplitChar(t, c);
      assert w + t == t && w + r[0] == r[0];
      assert [r[0]] + r[1..] == r;
    } else {
      var r := SplitChar(t, c);
      assert (w + t)[1..] == w[1..] + t;
      SplitCharPrefix(w[1..], t, c);
      var rest := SplitChar(w[1..] + t, c);
      assert rest[0] == w[1..] + r[0] && rest[1..] == r[1..];
      assert (w + t)[0] == w[0] && w[0] != c;
      assert SplitChar(w + t, c) == [[w[0]] + rest[0]] + rest[1..];
      assert [w[0]] + (w[1..] + r[0]) == w + r[0];
    }
  }

  /** `c.join(ws).split(c) == ws` when no piece contains `c`. */
  lemma {:induction false} SplitCharJoin(ws: seq<string>, c: char)
    requires |ws| >= 1
    requires forall k :: 0 <= k < |ws| ==> c !in ws[k]
    ensures SplitChar(Join(ws, c), c) == ws
  {
    if |ws| == 1 {
      SplitCharPrefix(ws[0], [], c);
      assert ws[0] + [] == ws[0];
    } else {
      var rest := Join(ws[1..], c);
      assert Join(ws, c) == ws[0] + ([c] + rest);
      SplitCharPrefix(ws[0], [c] + rest, c);
      assert ([c] + rest)[1..] == rest;
      SplitCharJoin(ws[1..], c);
      assert SplitChar([c] + rest, c) == [[]] + ws[1..];
      assert ws[0] + [] == ws[0];
      assert [ws[0]] + ws[1..] == ws;
    }
  }

  /** A joined string contains no whitespace when its pieces and the
      separator contain none. */
  lemma {:induction false} JoinNoSpace(ws: seq<string>, sep: char)
    requires !IsSpace(sep)
    requires forall k :: 0 <= k < |ws| ==> NoSpace(ws[k])
    ensures NoSpace(Join(ws, sep))
  {
    if |ws| > 1 {
      JoinNoSpace(ws[1..], sep);
    }
  }

  /** A joined string avoids a character its pieces and separator avoid. */
  lemma {:induction false} JoinHasNo(ws: seq<string>, sep: char, c: char)
    requires sep != c
    requires forall k :: 0 <= k < |ws| ==> c !in ws[k]
    ensures c !in Join(ws, sep)
  {
    if |ws| > 1 {
      JoinHasNo(ws[1..], sep, c);
    }
  }

  /** A decimal string contains none of the punctuation used as separators. */
  lemma DecimalHasNo(n: nat, c: char)
    requires !IsDigit(c)
    ensures c !in Decimal(n)
  {
  }

  lemma Hex2HasNo(b: byte, c: char)
    requires !IsHexDigit(c)
    ensures c !in Hex2(b)
  {
  }
}
